=== FILE: README.md ===
# dromozoa-curl handle lifetimes, in Dafny

dromozoa-curl binds libcurl to Lua. Its handle layer is three C++ classes. Each keeps Lua values alive while libcurl holds pointers into them, and frees what it owns:

- `easy_handle` wraps one `CURL*`. It has two per-option registries, one of Lua references and one of `curl_slist` header lists. It also has a non-owning back-pointer to the multi handle it is attached to.
- `multi_handle` wraps one `CURLM*`. Its membership map goes from each attached easy handle to the Lua reference that keeps that handle's Lua value alive. It also has a registry of option references.
- `httppost_handle` builds a multipart form. It turns (option, value) pairs into `curl_forms` records for `curl_formadd`. It keeps the references and header lists the records point into, and a count of stream parts.

This project models the three classes as Dafny classes over a shared `Runtime`. The model:

- gives every Lua reference and header list an abstract identity;
- records who owns each live one;
- logs every release, and every libcurl call in order;
- stamps every release with the number of libcurl calls made before it, so a contract can say that a resource is released only after the native call that may still use it;
- stamps every new reference and list the same way, so a contract can say that a resource exists before the native call that is given it;
- logs every status code reported through `DROMOZOA_UNEXPECTED`.

Only the owner of a live resource may release it. So "released exactly once" is part of every contract that releases something. The status codes libcurl returns are parameters of the methods that call it.

Files:

- `host.dfy` (module `Host`) holds the runtime, the curl constants, the records and the call log.
- `registry.dfy` (module `Registry`) holds the option registries of the easy and multi handles: replace releases the old entry, and erasing an absent key does nothing. It also holds the lemmas about releasing a whole map.
- `handles.dfy` (module `Handles`) holds `easy_handle` and `multi_handle`. They share one module because each changes the other.
- `httppost.dfy` (module `Forms`) holds `httppost_handle`. What `add` does is given by the pure functions `Field` (one pair) and `Walk` (the whole argument list). The builder's methods are proved to change its holdings exactly as these functions say.

`easy_handle::cleanup` and `multi_handle::cleanup` are not idempotent: neither tests `handle_` (`easy_handle::cleanup` tests only `multi_handle_`, at easy_handle.cpp:35); only the destructors test `handle_` before cleaning up (easy_handle.cpp:23-27, multi_handle.cpp:23-27). So `Cleanup` can be called on a handle that is already cleaned up, and it then makes the native cleanup call on a null handle, as the code does. `Finalize` is the guarded version.

## Model

| member | source | states |
|---|---|---|
| Host.Runtime.NewReference | easy_handle.cpp:74 | a new Lua reference is fresh, live and owned by the handle that made it, and stamped with the number of calls made so far; nothing is released |
| Host.Runtime.NewList | httppost_handle.cpp:91 | a header list built from a non-empty table is fresh, owned by no handle yet, and stamped with the number of calls made so far |
| Host.Runtime.Adopt | httppost_handle.cpp:93-94 | releasing the list holder hands ownership of the list to the handle; nothing is freed |
| Host.Runtime.Release | easy_handle.cpp:58 | deleting a reference (or freeing a list) needs it live and owned by the caller, removes it from the live set, logs it released once and stamps it with the number of calls made so far |
| Host.Runtime.ReleaseAll | easy_handle.cpp:54-61 | a loop over a set of owned resources releases each exactly once and nothing else, all after the calls made so far |
| Host.Runtime.Invoke | easy_handle.cpp:30 | a libcurl call is appended to the call log and changes no ownership |
| Host.Runtime.Report | easy_handle.cpp:37-39 | DROMOZOA_UNEXPECTED logs the failing code and changes nothing else |
| Registry.Displaced | easy_handle.cpp:75-81 | installing or erasing under an option affects exactly the entry already there: none if the option is absent, one if present |
| Registry.ValuesMatchEntries | easy_handle.cpp:53-61 | an injective registry holds as many distinct resources as entries; `Clear` uses it to release exactly one resource per entry |
| Registry.InstallValues | easy_handle.cpp:73-83 | installing a fresh resource keeps the registry injective; the old entry's resource leaves, the new one enters |
| Registry.EraseValues | easy_handle.cpp:85-91 | erasing an option keeps the registry injective and removes only that option's resource |
| Registry.Put | easy_handle.cpp:73-83 | find then insert, or release the old entry and assign: the map gains the new entry, the old one is released once (and stamped), other options keep their entries |
| Registry.Erase | easy_handle.cpp:85-91 | an absent option changes nothing; a present one is released once (and stamped) and only its key is removed |
| Registry.KeysOf | multi_handle.cpp:31-33 | the traversal of the membership map visits every key exactly once |
| Registry.OutsideImage | multi_handle.cpp:33-41 | the reference of a member the loop has not reached is not among those already released |
| Registry.ImageOfAll | multi_handle.cpp:30-43 | a traversal that visits every member reaches every membership reference |
| Handles.Removals | multi_handle.cpp:33-35 | the cleanup loop makes one curl_multi_remove_handle call per member, in visiting order |
| Handles.Failures | multi_handle.cpp:35-38 | the codes reported by the cleanup loop are all failures, at most one per member |
| Handles.RemovalsCover | multi_handle.cpp:33-35 | every member gets its remove call, and every logged call is a remove on this group's native handle |
| Handles.FailuresCover | multi_handle.cpp:35-38 | every member whose remove failed has its code reported |
| Handles.StillOwned | multi_handle.cpp:33-41 | when the loop reaches a member, that member's reference is still live and the group's own |
| Handles.ReleasedStep | multi_handle.cpp:39-40 | releasing the current member's reference moves the live set and the released multiset on by exactly that one reference |
| Handles.StampedStep | multi_handle.cpp:39-40 | releasing the current member's reference right after its remove call moves the release times on by exactly that one, stamped one past that call |
| Handles.DetachStampsAt | multi_handle.cpp:33-41 | the reference of the j-th member visited is released after exactly j+1 remove calls: right after its own remove call, so before every later call |
| Handles.LoggedStep | multi_handle.cpp:35-38 | the remove call and the possible report for the current member extend the call and report logs in order |
| Handles.ProgressStep | multi_handle.cpp:33-41 | one turn of the loop moves the whole loop state on by one member |
| Handles.Finished | multi_handle.cpp:30-43 | after the last member, every membership reference is released once, each right after its own remove call, every remove call made in order and every failure reported |
| Handles.HandlesOf | multi_handle.cpp:33-35 | the native handles named by the loop's remove calls: one per member, in visiting order |
| Handles.EasyHandle.constructor | easy_handle.cpp:21 | a new easy handle stores its native handle, has no group and has empty registries |
| Handles.EasyHandle.NewReference | easy_handle.cpp:73-83 | the option maps to a fresh reference; a reference already there is released exactly once; other options are unchanged; one new reference number is used |
| Handles.EasyHandle.DeleteReference | easy_handle.cpp:85-91 | an absent option is a no-op; a present one is released once and only it is removed |
| Handles.EasyHandle.SaveSlist | easy_handle.cpp:93-101 | the handle takes ownership of the list under the option; the previous list there is freed exactly once |
| Handles.EasyHandle.FreeSlist | easy_handle.cpp:103-109 | an absent option is a no-op; a present list is freed once and only it is removed |
| Handles.EasyHandle.Clear | easy_handle.cpp:53-71 | every stored reference and every stored list is released exactly once, one release per entry, and both registries end empty |
| Handles.EasyHandle.Reset | easy_handle.cpp:29-32 | curl_easy_reset on the native handle, and every registry entry released once after that call; both registries end empty; native handle and group unchanged |
| Handles.EasyHandle.Detach | easy_handle.cpp:35-40 | an attached handle asks its group to remove it: membership and back-pointer go only on success; a failure is reported, never returned |
| Handles.EasyHandle.Cleanup | easy_handle.cpp:34-47 | the group remove (if attached) comes before curl_easy_cleanup, and the membership reference goes right after the remove when it succeeds; every registry entry is released once after curl_easy_cleanup; exactly those resources stop being live, and every other resource keeps its owner; afterwards the native handle is null and both registries are empty |
| Handles.EasyHandle.Dispose | easy_handle.cpp:42-46 | curl_easy_cleanup on the old native handle, which becomes null, then every registry entry released once, after that call |
| Handles.EasyHandle.Finalize | easy_handle.cpp:23-27 | a handle whose native handle is already null is left untouched; otherwise exactly the effect of Cleanup, stated once for both: detach outcome and calls, reports, releases, their order and the owners left, back-pointer and group membership |
| Handles.MultiHandle.constructor | multi_handle.cpp:21 | a new group stores its native handle and has no members and no option references |
| Handles.MultiHandle.AddHandle | multi_handle.cpp:61-84 | a bound or already-member handle gives CURLM_ADDED_ALREADY and nothing changes; otherwise one entry with a fresh reference is inserted, the reference made before the native add (its creation stamp is the add's index in the call log), the back-pointer is set only on CURLM_OK, and the native code is returned; the back-pointer-implies-membership invariant is kept |
| Handles.MultiHandle.RemoveHandle | multi_handle.cpp:86-104 | an unbound or non-member handle gives CURLM_OK with no change; otherwise the native remove is made, and only on CURLM_OK are the back-pointer cleared, the reference released once and that entry erased; the invariant is kept |
| Handles.MultiHandle.DetachMember | multi_handle.cpp:34-40 | one member: the native remove, a report if it failed, back-pointer cleared and reference released, after the remove, whatever the result |
| Handles.MultiHandle.Visit | multi_handle.cpp:33-41 | one turn of the cleanup loop keeps the loop invariant, one member further on |
| Handles.MultiHandle.Sweep | multi_handle.cpp:33-41 | the loop itself: every member visited in order, each back-pointer cleared, and the loop state advanced over the whole visiting order |
| Handles.MultiHandle.DetachAll | multi_handle.cpp:30-41 | the loop clears every member's back-pointer and releases every membership reference once, each right after its member's remove call, with the remove calls in visiting order and every failure reported |
| Handles.MultiHandle.DetachMembers | multi_handle.cpp:30-43 | as DetachAll, then the membership map is emptied and the group is valid again |
| Handles.MultiHandle.Forget | multi_handle.cpp:42 | emptying the membership map once its references are released leaves a valid group |
| Handles.MultiHandle.Cleanup | multi_handle.cpp:29-59 | every member is detached and its reference released right after its remove call, regardless of remove results, so before curl_multi_cleanup; the native handle becomes null; every option reference is released once after curl_multi_cleanup; the cleanup code is returned; the invariant is kept |
| Handles.MultiHandle.Close | multi_handle.cpp:45-58 | curl_multi_cleanup on the old native handle, whose code is returned, and the handle becomes null; every option reference is released once, after that call |
| Handles.MultiHandle.Finalize | multi_handle.cpp:23-27 | a group already cleaned up is left untouched, its members' back-pointers included; otherwise exactly the effect of Cleanup: every member detached and released in order before curl_multi_cleanup, option references after it, back-pointers cleared, the invariant kept |
| Handles.MultiHandle.NewReference | multi_handle.cpp:110-120 | at most one reference per option: a fresh one is stored and the one it replaces released once; one new reference number is used |
| Handles.MultiHandle.DeleteReference | multi_handle.cpp:122-128 | an absent option is a no-op; a present one is released once and removed |
| Handles.FailedAddSticks | multi_handle.cpp:61-94 | after a failed native add, the entry stays with no back-pointer: a second add answers CURLM_ADDED_ALREADY and a remove answers CURLM_OK, both without a native call |
| Handles.AttachThenCleanup | easy_handle.cpp:34-47 | attach then easy cleanup: add, remove, easy cleanup, in that order; after a successful remove the group no longer has the member, after a failed one it still does |
| Handles.CleanupMember | easy_handle.cpp:34-47 | easy cleanup of a group member: the remove, then curl_easy_cleanup; on CURLM_OK the member leaves the group, otherwise it stays |
| Handles.CleanupLeavesOthers | easy_handle.cpp:34-47 | cleaning up one handle leaves a second handle on the same runtime valid, with every registry entry still live and its own |
| Forms.Field | httppost_handle.cpp:27-100 | one pair answers OK exactly when the option accepts the value (a string for the string options, a size_t for the lengths, non-nil for STREAM, a non-empty table for CONTENTHEADER); CURL_FORMADD_NULL exactly for nil, or an empty header table, under a known non-length option; CURL_FORMADD_UNKNOWN_OPTION exactly for unknown options; failures build and keep nothing; success builds the string's record followed, for PTR/COPY NAME, CONTENTS and BUFFERPTR, by NAMELENGTH, CONTENTLEN or BUFFERLENGTH with the string's size, or the length record, or a stream record pointing at the fresh reference, or a header record pointing at the fresh list; a reference is kept exactly for the PTR and stream options, a list exactly for CONTENTHEADER, a stream counted exactly for STREAM; no record is CURLFORM_END |
| Forms.Walk | httppost_handle.cpp:150-220 | the records already built are kept as a prefix; no record it adds is CURLFORM_END; a failing reply is a Lua error, NULL or UNKNOWN_OPTION; nothing kept is undone |
| Forms.FieldShape | httppost_handle.cpp:27-100 | a field keeps nothing, one fresh reference (counted as a stream or not), or one fresh list |
| Forms.ReferenceFits | httppost_handle.cpp:235-239 | keeping a fresh reference keeps the builder's invariant |
| Forms.SlistFits | httppost_handle.cpp:241-243 | keeping a fresh list keeps the builder's invariant |
| Forms.FieldFits | httppost_handle.cpp:48-100 | every field keeps the builder's invariant: what it keeps is fresh, its own, and streams never outnumber references |
| Forms.WalkFits | httppost_handle.cpp:153-220 | a whole add keeps the builder's invariant, wherever it stops |
| Forms.TwoStreams | httppost_handle.cpp:77-86 | two stream pairs count two streams and keep two distinct references, one per callback record |
| Forms.WalkAccepted | httppost_handle.cpp:153-220 | when every pair is accepted and the pairs end at the top of the stack or at CURLFORM_END, the walk answers OK with the fields' records concatenated in order, each field seeing the holdings the previous one left |
| Forms.EndIgnoresRest | httppost_handle.cpp:153-157 | pairs after CURLFORM_END are never looked at |
| Forms.FailureIgnoresRest | httppost_handle.cpp:217-219 | once a pair fails or raises, nothing after it is looked at: the first failure decides the reply and what is kept |
| Forms.FormBuilder.constructor | httppost_handle.cpp:115 | a new builder has a null chain, no references, no lists and no streams |
| Forms.FormBuilder.NewReference | httppost_handle.cpp:235-239 | a fresh reference joins the builder's set and is its own |
| Forms.FormBuilder.SaveSlist | httppost_handle.cpp:241-243 | the builder takes ownership of a list no one owned and adds it to its set |
| Forms.FormBuilder.AddString | httppost_handle.cpp:27-46 | the copied-string helper builds what StringField says and changes nothing |
| Forms.FormBuilder.AddStringRef | httppost_handle.cpp:48-69 | the ref-string helper builds and keeps what StringRefField says |
| Forms.FormBuilder.AddInteger | httppost_handle.cpp:71-75 | the length helper builds what IntegerField says and changes nothing |
| Forms.FormBuilder.AddFunctionRef | httppost_handle.cpp:77-86 | the stream helper builds, keeps and counts what FunctionRefField says |
| Forms.FormBuilder.AddSlist | httppost_handle.cpp:88-100 | the header helper builds and keeps what SlistField says |
| Forms.FormBuilder.Dispatch | httppost_handle.cpp:159-215 | the switch hands each option to the helper Field names, and changes the builder as Field says |
| Forms.FormBuilder.Add | httppost_handle.cpp:150-225 | the builder ends as Walk says; on a complete walk the records plus exactly one terminating CURLFORM_END go to curl_formadd, whose code is returned; otherwise the walk's reply stands and curl_formadd is not called |
| Forms.FormBuilder.Free | httppost_handle.cpp:123-148 | the chain is nulled and handed to curl_formfree; every reference and list is released exactly once, after curl_formfree; both sets end empty and the stream count is 0 |
| Forms.FormBuilder.Finalize | httppost_handle.cpp:117-121 | a builder with a null chain is left untouched; otherwise exactly the effect of Free, releases after curl_formfree included |

## Left out

- easy.cpp: the Lua glue is not part of this model. That is the metatable setup, `curl_easy_init` and its failure code, `perform`, `escape`/`unescape`, and the setopt/getinfo tables that decide which options call `new_reference` or `save_slist`.
- The `get()` accessors (easy_handle.cpp:49-51, multi_handle.cpp:106-108, httppost_handle.cpp:227-229) and `stream()` (httppost_handle.cpp:231-233) only read a field, so they are not modelled.
- libcurl is opaque. Every native call is logged, and its status code is a parameter. Where `curl_formadd` leaves the chain is given by the `newFirst`/`newLast` parameters. Nothing about what libcurl does inside is modelled.
- Lua values are reduced to nil, string, integer, a table of strings, and any other value. The checking functions `luaX_check_enum`, `luaX_check_string`, `luaX_check_integer`, `luaL_checktype` and `check_easy_handle` are not part of this model. The model assumes they raise a Lua error (the reply `Raised`) in these cases:
  - an option that is not an integer;
  - a string value that is not a string (Lua's number-to-string coercion is not modelled);
  - a length that is missing, not an integer, or outside the range of `size_t` (Lua's string-to-number coercion, such as `"17"` for a length or an option, is not modelled either);
  - a header value that is not a table.
- A raised Lua error unwinds past `add`. The model returns `Raised` instead, and keeps every change made before the error, as the unwinding does.
- `string_list` construction is not modelled. Only whether the list is empty matters.
- The contents of the list are not modelled either, nor which Lua value a reference points to.
- The order of `std::map` and `std::set` traversal is left open. Each cleanup and free contract holds for every visiting order, and `MultiHandle.Cleanup` returns the order it used as a ghost value.
- The message text of `DROMOZOA_UNEXPECTED` (`curl_multi_strerror`) is not modelled. Only the code is logged.
- Only the `CURL_AT_LEAST_VERSION(7,46,0)` branch is modelled, so COPYCONTENTS and PTRCONTENTS are paired with CURLFORM_CONTENTLEN.
- Forms.FormBuilder.AddFunctionRef: does not model overflow of the C `int` counter `stream_`, because the count is unbounded here.
- Pointer casts and `scoped_ptr` mechanics are not modelled, beyond "the reference is released".
- Lua garbage collection is not modelled either, beyond "the reference is released".
- Memory allocation failure inside `new luaX_reference` is not modelled.

=== FILE: handles.dfy ===
/**
 * easy_handle and multi_handle. The two classes live in one module because
 * each reaches into the other: easy_handle::cleanup asks its group to
 * remove it, and multi_handle::add_handle, remove_handle and cleanup set and
 * clear the easy handle's back-pointer `multi_handle_`.
 */
module Handles {
  import opened Host
  import opened Registry

  /** The curl_multi_remove_handle calls group `m` makes for the native handles `hs`, in that order. */
  function Removals(m: Native, hs: seq<Native>): (r: seq<Call>)
    ensures |r| == |hs|
    decreases |hs|
  {
    if hs == [] then [] else Removals(m, hs[..|hs| - 1]) + [MultiRemoveHandle(m, hs[|hs| - 1])]
  }

  /**
   * The codes reported while removing the members `es` in that order, when
   * member `e` answers `codes(e)`: the failures, and only those.
   */
  function Failures(es: seq<EasyHandle>, codes: EasyHandle -> int): (r: seq<int>)
    ensures |r| <= |es|
    ensures forall i | 0 <= i < |r| :: r[i] != CURLM_OK
    decreases |es|
  {
    if es == [] then []
    else
      var e := es[|es| - 1];
      Failures(es[..|es| - 1], codes) + (if codes(e) != CURLM_OK then [codes(e)] else [])
  }

  /** Each handle of `hs` has its remove call among the calls, and nothing else is there. */
  lemma {:induction false} RemovalsCover(m: Native, hs: seq<Native>)
    ensures forall h | h in hs :: MultiRemoveHandle(m, h) in Removals(m, hs)
    ensures forall c | c in Removals(m, hs) :: c.MultiRemoveHandle? && c.multi == m
    decreases |hs|
  {
    if hs != [] {
      var init := hs[..|hs| - 1];
      RemovalsCover(m, init);
      forall h | h in hs ensures MultiRemoveHandle(m, h) in Removals(m, hs) {
        if h != hs[|hs| - 1] {
          var i :| 0 <= i < |hs| && hs[i] == h;
          assert h in init by { assert init[i] == h; }
        }
      }
    }
  }

  /** The code of every member whose removal failed is among the reported codes. */
  lemma {:induction false} FailuresCover(es: seq<EasyHandle>, codes: EasyHandle -> int)
    ensures forall e | e in es && codes(e) != CURLM_OK :: codes(e) in Failures(es, codes)
    decreases |es|
  {
    if es != [] {
      var init := es[..|es| - 1];
      FailuresCover(init, codes);
      forall e | e in es && codes(e) != CURLM_OK ensures codes(e) in Failures(es, codes) {
        if e != es[|es| - 1] {
          var i :| 0 <= i < |es| && es[i] == e;
          assert e in init by { assert init[i] == e; }
        }
      }
    }
  }

  /**
   * Where a group's cleanup loop stands after visiting the first `i` of
   * `members` (native handles `natives`), in group `multi` whose membership
   * map is `m`, starting from `start`: their references are released, their
   * remove calls made in order and their failures reported.
   */
  ghost predicate Progress(st: Snapshot, start: Snapshot, multi: Native, m: map<EasyHandle, Resource>,
                           members: seq<EasyHandle>, natives: seq<Native>, removeResults: EasyHandle -> int, i: nat)
  {
    && i <= |members| && |natives| == |members|
    && Released(st, start, m, members, i)
    && Stamped(st, start, m, members, i)
    && Logged(st, start, multi, members, natives, removeResults, i)
  }

  /**
   * When the cleanup loop releases the membership references of `members`,
   * visiting them in that order from a point where `base` calls had been
   * made: each right after its own remove call.
   */
  ghost function DetachStamps(m: map<EasyHandle, Resource>, members: seq<EasyHandle>, base: nat): map<Resource, nat>
    decreases |members|
  {
    if members == [] then map[]
    else
      var e := members[|members| - 1];
      var earlier := DetachStamps(m, members[..|members| - 1], base);
      if e in m then earlier[m[e] := base + |members|] else earlier
  }

  /**
   * Member `j` of the visiting order has its reference released once
   * `base + j + 1` calls have been made: after its own remove call (call
   * `base + j`) and before the next member's, so every membership reference
   * is released before the calls that follow the loop.
   */
  lemma {:induction false} DetachStampsAt(m: map<EasyHandle, Resource>, members: seq<EasyHandle>, base: nat, j: nat)
    requires Injective(m) && j < |members| && members[j] in m
    requires forall a, b | 0 <= a < b < |members| :: members[a] != members[b]
    ensures m[members[j]] in DetachStamps(m, members, base)
    ensures DetachStamps(m, members, base)[m[members[j]]] == base + j + 1
    decreases |members|
  {
    var n := |members| - 1;
    if j < n {
      var init := members[..n];
      assert init[j] == members[j];
      DetachStampsAt(m, init, base, j);
      if members[n] in m {
        assert m[members[n]] != m[members[j]];
      }
    }
  }

  /** The references of the first `i` members are released, each once, and nothing else. */
  ghost predicate Released(st: Snapshot, start: Snapshot, m: map<EasyHandle, Resource>, members: seq<EasyHandle>, i: nat)
    requires i <= |members|
  {
    && st.owner == start.owner - Image(m, members[..i])
    && st.released == start.released + multiset(Image(m, members[..i]))
  }

  /** The references of the first `i` members were released in visiting order, each right after its remove call. */
  ghost predicate Stamped(st: Snapshot, start: Snapshot, m: map<EasyHandle, Resource>, members: seq<EasyHandle>, i: nat)
    requires i <= |members|
  {
    st.freedAt == start.freedAt + DetachStamps(m, members[..i], |start.calls|)
  }

  /** The remove calls of the first `i` members are made in order, and their failures reported. */
  ghost predicate Logged(st: Snapshot, start: Snapshot, multi: Native, members: seq<EasyHandle>,
                         natives: seq<Native>, removeResults: EasyHandle -> int, i: nat)
    requires i <= |members| && |natives| == |members|
  {
    && st.calls == start.calls + Removals(multi, natives[..i])
    && st.unexpected == start.unexpected + Failures(members[..i], removeResults)
  }

  /** A member the loop has not reached still owns its membership reference. */
  lemma StillOwned(st: Snapshot, start: Snapshot, multi: Native, m: map<EasyHandle, Resource>,
                   members: seq<EasyHandle>, natives: seq<Native>, removeResults: EasyHandle -> int, i: nat,
                   who: object)
    requires Injective(m) && Lists(members, m.Keys) && i < |members|
    requires forall r | r in m.Values :: r in start.owner && start.owner[r] == who
    requires Progress(st, start, multi, m, members, natives, removeResults, i)
    ensures m[members[i]] in st.owner && st.owner[m[members[i]]] == who
  {
    assert members[i] !in members[..i];
    OutsideImage(m, members[..i], members[i]);
    assert m[members[i]] in m.Values;
  }

  /** Releasing member `i`'s reference moves the released part of the loop one member on. */
  lemma ReleasedStep(st: Snapshot, st': Snapshot, start: Snapshot, m: map<EasyHandle, Resource>,
                     members: seq<EasyHandle>, i: nat)
    requires i < |members| && members[i] in m && m[members[i]] in st.owner
    requires Released(st, start, m, members, i)
    requires st'.owner == st.owner - {m[members[i]]}
    requires st'.released == st.released + multiset{m[members[i]]}
    ensures Released(st', start, m, members, i + 1)
  {
    var r := m[members[i]];
    ImageStep(m, members, i);
    assert r !in Image(m, members[..i]);
    assert multiset(Image(m, members[..i + 1])) == multiset(Image(m, members[..i])) + multiset{r};
  }

  /** Releasing member `i`'s reference right after its remove call moves the release times one member on. */
  lemma StampedStep(st: Snapshot, st': Snapshot, start: Snapshot, m: map<EasyHandle, Resource>,
                    members: seq<EasyHandle>, i: nat)
    requires i < |members| && members[i] in m
    requires Stamped(st, start, m, members, i)
    requires st'.freedAt == st.freedAt[m[members[i]] := |start.calls| + i + 1]
    ensures Stamped(st', start, m, members, i + 1)
  {
    DetachStampsStep(m, members, |start.calls|, i);
    UpdateUnion(start.freedAt, DetachStamps(m, members[..i], |start.calls|), m[members[i]], |start.calls| + i + 1);
  }

  /** Visiting member `i` adds the release time of its reference. */
  lemma DetachStampsStep(m: map<EasyHandle, Resource>, members: seq<EasyHandle>, base: nat, i: nat)
    requires i < |members| && members[i] in m
    ensures DetachStamps(m, members[..i + 1], base) == DetachStamps(m, members[..i], base)[m[members[i]] := base + i + 1]
  {
    assert members[..i + 1][..i] == members[..i];
  }

  /** Updating a union at a key is updating its right operand there. */
  lemma UpdateUnion<K, V>(a: map<K, V>, b: map<K, V>, k: K, v: V)
    ensures (a + b)[k := v] == a + b[k := v]
  {
  }

  /** Logging member `i`'s remove call and failure moves the logged part of the loop one member on. */
  lemma LoggedStep(st: Snapshot, st': Snapshot, start: Snapshot, multi: Native,
                   members: seq<EasyHandle>, natives: seq<Native>, removeResults: EasyHandle -> int, i: nat)
    requires i < |members| && |natives| == |members|
    requires Logged(st, start, multi, members, natives, removeResults, i)
    requires st'.calls == st.calls + [MultiRemoveHandle(multi, natives[i])]
    requires st'.unexpected == st.unexpected +
               (if removeResults(members[i]) != CURLM_OK then [removeResults(members[i])] else [])
    ensures Logged(st', start, multi, members, natives, removeResults, i + 1)
  {
    assert natives[..i + 1][..i] == natives[..i];
    assert members[..i + 1][..i] == members[..i];
  }

  /** One turn of the loop, as DetachMember performs it, moves the loop one member on. */
  lemma ProgressStep(st: Snapshot, st': Snapshot, start: Snapshot, multi: Native, m: map<EasyHandle, Resource>,
                     members: seq<EasyHandle>, natives: seq<Native>, removeResults: EasyHandle -> int, i: nat)
    requires i < |members| && members[i] in m && m[members[i]] in st.owner
    requires Progress(st, start, multi, m, members, natives, removeResults, i)
    requires st'.owner == st.owner - {m[members[i]]}
    requires st'.released == st.released + multiset{m[members[i]]}
    requires st'.freedAt == st.freedAt[m[members[i]] := |st.calls| + 1]
    requires st'.calls == st.calls + [MultiRemoveHandle(multi, natives[i])]
    requires st'.unexpected == st.unexpected +
               (if removeResults(members[i]) != CURLM_OK then [removeResults(members[i])] else [])
    ensures Progress(st', start, multi, m, members, natives, removeResults, i + 1)
  {
    assert |st.calls| == |start.calls| + i;
    ReleasedStep(st, st', start, m, members, i);
    StampedStep(st, st', start, m, members, i);
    LoggedStep(st, st', start, multi, members, natives, removeResults, i);
  }

  /** Before the loop has visited any member, nothing has happened yet. */
  lemma Started(start: Snapshot, multi: Native, m: map<EasyHandle, Resource>,
                members: seq<EasyHandle>, natives: seq<Native>, removeResults: EasyHandle -> int)
    requires |natives| == |members|
    ensures Progress(start, start, multi, m, members, natives, removeResults, 0)
  {
    assert members[..0] == [] && natives[..0] == [];
    assert start.freedAt + map[] == start.freedAt;
  }

  /** When the loop has visited every member, every membership reference is released, once. */
  lemma Finished(st: Snapshot, start: Snapshot, multi: Native, m: map<EasyHandle, Resource>,
                 members: seq<EasyHandle>, natives: seq<Native>, removeResults: EasyHandle -> int)
    requires Lists(members, m.Keys)
    requires Progress(st, start, multi, m, members, natives, removeResults, |members|)
    ensures st.owner == start.owner - m.Values
    ensures st.released == start.released + multiset(m.Values)
    ensures st.freedAt == start.freedAt + DetachStamps(m, members, |start.calls|)
    ensures st.calls == start.calls + Removals(multi, natives)
    ensures st.unexpected == start.unexpected + Failures(members, removeResults)
  {
    assert members[..|members|] == members && natives[..|natives|] == natives;
    ImageOfAll(m, members);
  }

  /** The native handles of `es`, in order. */
  ghost function HandlesOf(es: seq<EasyHandle>): (hs: seq<Native>)
    reads es
    ensures |hs| == |es| && forall j | 0 <= j < |es| :: hs[j] == es[j].handle
    decreases |es|
  {
    if es == [] then [] else HandlesOf(es[..|es| - 1]) + [es[|es| - 1].handle]
  }

  /**
   * easy_handle: one CURL*, the Lua references and header lists installed
   * through its options (one per option), and a non-owning back-pointer to
   * the group it is attached to.
   */
  class EasyHandle {
    const rt: Runtime
    var handle: Native
    var multi: MultiHandle?
    var references: map<int, Resource>
    var slists: map<int, Resource>

    /** Each registry holds distinct resources of its own kind, all owned by this handle. */
    ghost predicate Valid()
      reads this, rt
    {
      && rt.Valid()
      && Injective(references) && Injective(slists)
      && (forall r | r in references.Values :: r.Reference?)
      && (forall s | s in slists.Values :: s.Slist?)
      && rt.OwnedBy(references.Values, this) && rt.OwnedBy(slists.Values, this)
    }

    constructor (rt: Runtime, handle: Native)
      requires rt.Valid()
      ensures Valid() && this.rt == rt
      ensures this.handle == handle && multi == null
      ensures references == map[] && slists == map[]
    {
      this.rt := rt;
      this.handle := handle;
      multi := null;
      references := map[];
      slists := map[];
    }

    /**
     * Stores a fresh reference under `option`. A reference already stored
     * there is released, exactly once; no other option changes.
     */
    method NewReference(option: int) returns (r: Resource)
      requires Valid()
      modifies this`references, rt
      ensures Valid()
      ensures r == Reference(old(rt.next)) && r !in old(rt.owner)
      ensures references == old(references)[option := r]
      ensures rt.owner == (old(rt.owner) - Displaced(old(references), option))[r := this]
      ensures rt.released == old(rt.released) + multiset(Displaced(old(references), option))
      ensures rt.freedAt == if option in old(references) then old(rt.freedAt)[old(references)[option] := |rt.calls|]
                            else old(rt.freedAt)
      ensures rt.next == old(rt.next) + 1
      ensures rt.calls == old(rt.calls) && rt.unexpected == old(rt.unexpected)
    {
      r := rt.NewReference(this);
      references := Put(rt, references, option, r, this);
    }

    /** Releases and forgets the reference under `option`; an absent option is a no-op. */
    method DeleteReference(option: int)
      requires Valid()
      modifies this`references, rt
      ensures Valid()
      ensures references == old(references) - {option}
      ensures rt.owner == old(rt.owner) - Displaced(old(references), option)
      ensures rt.released == old(rt.released) + multiset(Displaced(old(references), option))
      ensures rt.freedAt == if option in old(references) then old(rt.freedAt)[old(references)[option] := |rt.calls|]
                            else old(rt.freedAt)
      ensures option !in old(references) ==> rt.released == old(rt.released)
      ensures rt.next == old(rt.next) && rt.calls == old(rt.calls)
      ensures rt.unexpected == old(rt.unexpected)
    {
      references := Erase(rt, references, option, this);
    }

    /**
     * Takes ownership of the header list `s` under `option`, freeing the
     * list stored there before, if any.
     */
    method SaveSlist(option: int, s: Resource)
      requires Valid()
      requires s.Slist? && s in rt.owner && rt.owner[s] == rt
      modifies this`slists, rt
      ensures Valid()
      ensures slists == old(slists)[option := s]
      ensures rt.owner == (old(rt.owner) - Displaced(old(slists), option))[s := this]
      ensures rt.released == old(rt.released) + multiset(Displaced(old(slists), option))
      ensures rt.freedAt == if option in old(slists) then old(rt.freedAt)[old(slists)[option] := |rt.calls|]
                            else old(rt.freedAt)
      ensures rt.next == old(rt.next) && rt.calls == old(rt.calls)
      ensures rt.unexpected == old(rt.unexpected)
    {
      rt.Adopt(s, this);
      slists := Put(rt, slists, option, s, this);
    }

    /** Frees and forgets the header list under `option`; an absent option is a no-op. */
    method FreeSlist(option: int)
      requires Valid()
      modifies this`slists, rt
      ensures Valid()
      ensures slists == old(slists) - {option}
      ensures rt.owner == old(rt.owner) - Displaced(old(slists), option)
      ensures rt.released == old(rt.released) + multiset(Displaced(old(slists), option))
      ensures rt.freedAt == if option in old(slists) then old(rt.freedAt)[old(slists)[option] := |rt.calls|]
                            else old(rt.freedAt)
      ensures option !in old(slists) ==> rt.released == old(rt.released)
      ensures rt.next == old(rt.next) && rt.calls == old(rt.calls)
      ensures rt.unexpected == old(rt.unexpected)
    {
      slists := Erase(rt, slists, option, this);
    }

    /** Releases every stored reference and frees every stored list, each once; both registries end empty. */
    method Clear()
      requires Valid()
      modifies this`references, this`slists, rt
      ensures Valid()
      ensures references == map[] && slists == map[]
      ensures rt.owner == old(rt.owner) - old(references).Values - old(slists).Values
      ensures rt.released == old(rt.released) + multiset(old(references).Values) + multiset(old(slists).Values)
      ensures |rt.released| == old(|rt.released|) + |old(references)| + |old(slists)|
      ensures rt.freedAt == old(rt.freedAt) + Stamp(old(references).Values, |rt.calls|) + Stamp(old(slists).Values, |rt.calls|)
      ensures rt.next == old(rt.next) && rt.calls == old(rt.calls)
      ensures rt.unexpected == old(rt.unexpected)
    {
      ValuesMatchEntries(references);
      ValuesMatchEntries(slists);
      rt.ReleaseAll(references.Values, this);
      references := map[];
      rt.ReleaseAll(slists.Values, this);
      slists := map[];
    }

    /**
     * curl_easy_reset, then both registries are cleared: every entry is
     * released after the native reset. The handle and its group stay.
     */
    method Reset()
      requires Valid()
      modifies this`references, this`slists, rt
      ensures Valid()
      ensures handle == old(handle) && multi == old(multi)
      ensures references == map[] && slists == map[]
      ensures rt.calls == old(rt.calls) + [EasyReset(handle)]
      ensures rt.owner == old(rt.owner) - old(references).Values - old(slists).Values
      ensures rt.released == old(rt.released) + multiset(old(references).Values) + multiset(old(slists).Values)
      ensures rt.freedAt == old(rt.freedAt) + Stamp(old(references).Values, |rt.calls|) + Stamp(old(slists).Values, |rt.calls|)
      ensures rt.next == old(rt.next) && rt.unexpected == old(rt.unexpected)
    {
      rt.Invoke(EasyReset(handle));
      Clear();
    }

    /** The group named by the back-pointer has this handle among its members. */
    ghost predicate Member()
      reads this, multi
    {
      multi != null && this in multi.easyHandles
    }

    /**
     * The first step of cleanup: a handle bound to a group asks that group to
     * remove it. A failed removal is reported and otherwise ignored.
     * `removeResult` is what curl_multi_remove_handle answers if it is called.
     */
    method Detach(removeResult: int)
      requires Valid()
      requires multi != null ==> multi.Valid() && multi.rt == rt
      modifies this`multi, rt, multi
      ensures Valid()
      ensures var g := old(multi);
              var detached := old(Member()) && removeResult == CURLM_OK;
              && multi == (if detached then null else g)
              && (g != null ==> g.Valid() && g.handle == old(g.handle) && g.references == old(g.references))
              && (g != null ==> g.easyHandles == if detached then old(g.easyHandles) - {this} else old(g.easyHandles))
              && rt.calls == old(rt.calls) + (if old(Member()) then [MultiRemoveHandle(g.handle, handle)] else [])
              && rt.unexpected == old(rt.unexpected) + (if old(Member()) && removeResult != CURLM_OK then [removeResult] else [])
              && rt.owner == old(rt.owner) - (if detached then {old(g.easyHandles[this])} else {})
              && rt.released == old(rt.released) + (if detached then multiset{old(g.easyHandles[this])} else multiset{})
              && rt.freedAt == if detached then old(rt.freedAt)[old(g.easyHandles[this]) := old(|rt.calls|) + 1]
                               else old(rt.freedAt)
      ensures rt.next == old(rt.next)
    {
      if multi != null {
        ghost var g := multi;
        assert g.rt.OwnedBy(g.easyHandles.Values, g);
        var result := multi.RemoveHandle(this, removeResult);
        if result != CURLM_OK {
          rt.Report(result);
        }
      }
    }

    /**
     * What cleanup leaves, against the state before it, for a handle that
     * was bound to `g` (null if none): the native handle is null and both
     * registries are empty; the group remove (if a member) comes before
     * curl_easy_cleanup, and on CURLM_OK the back-pointer and the membership
     * entry go and the membership reference is released right after the
     * remove; a failed remove is reported; every registry entry is released
     * once after curl_easy_cleanup. Nothing else changes owner.
     */
    twostate predicate CleanedUp(g: MultiHandle?, removeResult: int)
      reads this, rt, g
    {
      var detached := old(Member()) && removeResult == CURLM_OK;
      && g == old(multi)
      && (g != null ==> g.rt == rt)
      && handle == NULL && references == map[] && slists == map[]
      && multi == (if detached then null else g)
      && (g != null ==> g.Valid() && g.handle == old(g.handle) && g.references == old(g.references))
      && (g != null ==> g.easyHandles == if detached then old(g.easyHandles) - {this} else old(g.easyHandles))
      && rt.calls == old(rt.calls)
                     + (if old(Member()) then [MultiRemoveHandle(g.handle, old(handle))] else [])
                     + [EasyCleanup(old(handle))]
      && rt.unexpected == old(rt.unexpected) + (if old(Member()) && removeResult != CURLM_OK then [removeResult] else [])
      && rt.owner == old(rt.owner) - (if detached then {old(g.easyHandles[this])} else {})
                     - old(references).Values - old(slists).Values
      && rt.released == old(rt.released)
                        + (if detached then multiset{old(g.easyHandles[this])} else multiset{})
                        + multiset(old(references).Values) + multiset(old(slists).Values)
      && rt.freedAt == (if detached then old(rt.freedAt)[old(g.easyHandles[this]) := old(|rt.calls|) + 1]
                        else old(rt.freedAt))
                       + Stamp(old(references).Values, |rt.calls|) + Stamp(old(slists).Values, |rt.calls|)
      && rt.next == old(rt.next)
    }

    /**
     * Detaches from the group (if attached) while the native handle is still
     * live, then frees the native handle, then clears both registries, so
     * every entry is released after curl_easy_cleanup. A failed detach is
     * only reported. `removeResult` is what curl_multi_remove_handle answers
     * if it is called.
     */
    method Cleanup(removeResult: int)
      requires Valid()
      requires multi != null ==> multi.Valid() && multi.rt == rt
      modifies this, rt, multi
      ensures Valid()
      ensures CleanedUp(old(multi), removeResult)
    {
      Detach(removeResult);
      Dispose();
    }

    /**
     * The second step of cleanup: curl_easy_cleanup frees the native handle,
     * which becomes null, and then both registries are cleared.
     */
    method Dispose()
      requires Valid()
      modifies this`handle, this`references, this`slists, rt
      ensures Valid()
      ensures handle == NULL && references == map[] && slists == map[]
      ensures rt.calls == old(rt.calls) + [EasyCleanup(old(handle))]
      ensures rt.owner == old(rt.owner) - old(references).Values - old(slists).Values
      ensures rt.released == old(rt.released) + multiset(old(references).Values) + multiset(old(slists).Values)
      ensures rt.freedAt == old(rt.freedAt) + Stamp(old(references).Values, |rt.calls|) + Stamp(old(slists).Values, |rt.calls|)
      ensures rt.next == old(rt.next) && rt.unexpected == old(rt.unexpected)
    {
      var h := handle;
      handle := NULL;
      rt.Invoke(EasyCleanup(h));
      Clear();
    }

    /** ~easy_handle: cleans up only a handle that has not been cleaned up yet. */
    method Finalize(removeResult: int)
      requires Valid()
      requires multi != null ==> multi.Valid() && multi.rt == rt
      modifies this, rt, multi
      ensures Valid()
      ensures old(handle) == NULL ==> unchanged(this, rt) && (old(multi) != null ==> unchanged(old(multi)))
      ensures old(handle) != NULL ==> CleanedUp(old(multi), removeResult)
    {
      if handle != NULL {
        Cleanup(removeResult);
      }
    }
  }

  /**
   * multi_handle: one CURLM*, the membership map from each attached easy
   * handle to the Lua reference that keeps its Lua value alive, and the
   * references installed through the group's own options.
   */
  class MultiHandle {
    const rt: Runtime
    var handle: Native
    var easyHandles: map<EasyHandle, Resource>
    var references: map<int, Resource>

    /** Membership and option references are distinct Lua references, all owned by this group. */
    ghost predicate Valid()
      reads this, rt
    {
      && rt.Valid()
      && Injective(easyHandles) && Injective(references)
      && easyHandles.Values !! references.Values
      && (forall r | r in easyHandles.Values :: r.Reference?)
      && (forall r | r in references.Values :: r.Reference?)
      && rt.OwnedBy(easyHandles.Values, this) && rt.OwnedBy(references.Values, this)
    }

    /** The binding invariant for one easy handle: a back-pointer to this group implies membership. */
    ghost predicate Binds(e: EasyHandle)
      reads this, e
    {
      e.multi == this ==> e in easyHandles
    }

    constructor (rt: Runtime, handle: Native)
      requires rt.Valid()
      ensures Valid() && this.rt == rt
      ensures this.handle == handle && easyHandles == map[] && references == map[]
    {
      this.rt := rt;
      this.handle := handle;
      easyHandles := map[];
      references := map[];
    }

    /**
     * Attaches `that`, unless it is already bound to a group or already a
     * member. The membership entry is inserted before the native call and
     * stays whatever that call answers; the back-pointer is set only on
     * CURLM_OK. `addResult` is what curl_multi_add_handle answers.
     */
    method AddHandle(that: EasyHandle, addResult: int) returns (result: int)
      requires Valid()
      modifies this`easyHandles, that`multi, rt
      ensures Valid()
      ensures old(that.multi) != null || that in old(easyHandles) ==>
                && result == CURLM_ADDED_ALREADY
                && easyHandles == old(easyHandles) && that.multi == old(that.multi)
                && rt.owner == old(rt.owner) && rt.next == old(rt.next) && rt.calls == old(rt.calls)
                && rt.madeAt == old(rt.madeAt)
      ensures old(that.multi) == null && that !in old(easyHandles) ==>
                && result == addResult
                && Reference(old(rt.next)) !in old(rt.owner)
                && easyHandles == old(easyHandles)[that := Reference(old(rt.next))]
                && rt.owner == old(rt.owner)[Reference(old(rt.next)) := this]
                && rt.next == old(rt.next) + 1
                && rt.calls == old(rt.calls) + [MultiAddHandle(handle, that.handle)]
                && rt.madeAt == old(rt.madeAt)[Reference(old(rt.next)) := old(|rt.calls|)]
                && that.multi == (if addResult == CURLM_OK then this else null)
      ensures rt.released == old(rt.released) && rt.freedAt == old(rt.freedAt) && rt.unexpected == old(rt.unexpected)
      ensures forall e: EasyHandle | old(allocated(e)) && old(Binds(e)) :: Binds(e)
    {
      if that.multi != null {
        return CURLM_ADDED_ALREADY;
      }
      if that in easyHandles {
        return CURLM_ADDED_ALREADY;
      }
      var r := rt.NewReference(this);
      InstallValues(easyHandles, that, r);
      easyHandles := easyHandles[that := r];
      rt.Invoke(MultiAddHandle(handle, that.handle));
      result := addResult;
      if result == CURLM_OK {
        that.multi := this;
      }
    }

    /**
     * Detaches `that`. An unbound or non-member handle is left alone and
     * CURLM_OK returned. Otherwise the native remove is made; only when it
     * answers CURLM_OK are the back-pointer cleared, the membership
     * reference released and the entry erased. `removeResult` is what
     * curl_multi_remove_handle answers.
     */
    method RemoveHandle(that: EasyHandle, removeResult: int) returns (result: int)
      requires Valid()
      modifies this`easyHandles, that`multi, rt
      ensures Valid()
      ensures old(that.multi) == null || that !in old(easyHandles) ==>
                && result == CURLM_OK
                && easyHandles == old(easyHandles) && that.multi == old(that.multi)
                && rt.owner == old(rt.owner) && rt.released == old(rt.released)
                && rt.freedAt == old(rt.freedAt) && rt.calls == old(rt.calls)
      ensures old(that.multi) != null && that in old(easyHandles) ==>
                && result == removeResult
                && rt.calls == old(rt.calls) + [MultiRemoveHandle(handle, that.handle)]
                && (removeResult == CURLM_OK ==>
                      && that.multi == null
                      && easyHandles == old(easyHandles) - {that}
                      && rt.owner == old(rt.owner) - {old(easyHandles)[that]}
                      && rt.released == old(rt.released) + multiset{old(easyHandles)[that]}
                      && rt.freedAt == old(rt.freedAt)[old(easyHandles)[that] := old(|rt.calls|) + 1])
                && (removeResult != CURLM_OK ==>
                      && that.multi == old(that.multi)
                      && easyHandles == old(easyHandles)
                      && rt.owner == old(rt.owner) && rt.released == old(rt.released)
                      && rt.freedAt == old(rt.freedAt))
      ensures rt.next == old(rt.next) && rt.unexpected == old(rt.unexpected)
      ensures forall e: EasyHandle | old(allocated(e)) && old(Binds(e)) :: Binds(e)
    {
      if that.multi == null {
        return CURLM_OK;
      }
      if that !in easyHandles {
        return CURLM_OK;
      }
      rt.Invoke(MultiRemoveHandle(handle, that.handle));
      result := removeResult;
      if result == CURLM_OK {
        that.multi := null;
        easyHandles := Erase(rt, easyHandles, that, this);
      }
    }

    /**
     * One turn of the cleanup loop for member `that`, whose membership
     * reference is `r`: the native remove (answering `code`), a report if it
     * failed, the back-pointer cleared and the reference released.
     */
    method DetachMember(that: EasyHandle, r: Resource, code: int)
      requires r in rt.owner && rt.owner[r] == this
      modifies that`multi, rt
      ensures that.multi == null
      ensures rt.owner == old(rt.owner) - {r} && rt.released == old(rt.released) + multiset{r}
      ensures rt.freedAt == old(rt.freedAt)[r := old(|rt.calls|) + 1]
      ensures rt.calls == old(rt.calls) + [MultiRemoveHandle(handle, that.handle)]
      ensures rt.unexpected == old(rt.unexpected) + (if code != CURLM_OK then [code] else [])
      ensures rt.next == old(rt.next)
    {
      rt.Invoke(MultiRemoveHandle(handle, that.handle));
      if code != CURLM_OK {
        rt.Report(code);
      }
      that.multi := null;
      rt.Release(r, this);
    }

    /** Turn `i` of the cleanup loop, begun in state `start`: DetachMember for `that`, member `i`. */
    method Visit(that: EasyHandle, members: seq<EasyHandle>, ghost natives: seq<Native>,
                 removeResults: EasyHandle -> int, i: nat, ghost start: Snapshot)
      requires i < |members| && that == members[i] && that in easyHandles
      requires easyHandles[that] in rt.owner && rt.owner[easyHandles[that]] == this
      requires |natives| == |members| && natives[i] == that.handle
      requires Progress(rt.State(), start, handle, easyHandles, members, natives, removeResults, i)
      modifies that`multi, rt
      ensures that.multi == null && rt.next == old(rt.next)
      ensures Progress(rt.State(), start, handle, easyHandles, members, natives, removeResults, i + 1)
    {
      ghost var before := rt.State();
      DetachMember(that, easyHandles[that], removeResults(that));
      ProgressStep(before, rt.State(), start, handle, easyHandles, members, natives, removeResults, i);
    }

    /** The cleanup loop: DetachMember for each of `members`, in order. */
    method DetachAll(members: seq<EasyHandle>, ghost natives: seq<Native>, removeResults: EasyHandle -> int)
      requires Injective(easyHandles) && Lists(members, easyHandles.Keys)
      requires |natives| == |members| && forall j | 0 <= j < |members| :: natives[j] == members[j].handle
      requires rt.OwnedBy(easyHandles.Values, this)
      modifies members`multi, rt
      ensures forall e | e in members :: e.multi == null
      ensures rt.owner == old(rt.owner) - easyHandles.Values
      ensures rt.released == old(rt.released) + multiset(easyHandles.Values)
      ensures rt.freedAt == old(rt.freedAt) + DetachStamps(easyHandles, members, old(|rt.calls|))
      ensures rt.calls == old(rt.calls) + Removals(handle, natives)
      ensures rt.unexpected == old(rt.unexpected) + Failures(members, removeResults)
      ensures rt.next == old(rt.next)
    {
      ghost var start := rt.State();
      Started(start, handle, easyHandles, members, natives, removeResults);
      Sweep(members, natives, removeResults, start);
      Finished(rt.State(), start, handle, easyHandles, members, natives, removeResults);
    }

    /** The loop of DetachAll, from state `start`, where no member has been visited yet. */
    method Sweep(members: seq<EasyHandle>, ghost natives: seq<Native>, removeResults: EasyHandle -> int,
                 ghost start: Snapshot)
      requires Injective(easyHandles) && Lists(members, easyHandles.Keys)
      requires |natives| == |members| && forall j | 0 <= j < |members| :: natives[j] == members[j].handle
      requires forall r | r in easyHandles.Values :: r in start.owner && start.owner[r] == this
      requires Progress(rt.State(), start, handle, easyHandles, members, natives, removeResults, 0)
      modifies members`multi, rt
      ensures forall j | 0 <= j < |members| :: members[j].multi == null
      ensures rt.next == old(rt.next)
      ensures Progress(rt.State(), start, handle, easyHandles, members, natives, removeResults, |members|)
    {
      for i := 0 to |members|
        invariant forall j | 0 <= j < i :: members[j].multi == null
        invariant rt.next == old(rt.next)
        invariant Progress(rt.State(), start, handle, easyHandles, members, natives, removeResults, i)
      {
        StillOwned(rt.State(), start, handle, easyHandles, members, natives, removeResults, i, this);
        label body:
        Visit(members[i], members, natives, removeResults, i, start);
        forall j | 0 <= j < i + 1 ensures members[j].multi == null {
          if j < i {
            assert members[j].multi == old@body(members[j].multi);
          }
        }
      }
    }

    /**
     * The first step of cleanup: every member is removed natively, whatever
     * that answers (a failure is only reported), its back-pointer is cleared
     * and its membership reference released; then the membership map is
     * emptied. `removeResults(e)` is what curl_multi_remove_handle answers
     * for member `e`; `order` is the order the members were visited in.
     */
    method DetachMembers(removeResults: EasyHandle -> int)
      returns (ghost order: seq<EasyHandle>, ghost natives: seq<Native>)
      requires Valid()
      modifies this`easyHandles, rt, easyHandles.Keys`multi
      ensures Valid()
      ensures Lists(order, old(easyHandles).Keys)
      ensures easyHandles == map[]
      ensures forall e | e in order :: e.multi == null
      ensures rt.owner == old(rt.owner) - old(easyHandles).Values
      ensures rt.released == old(rt.released) + multiset(old(easyHandles).Values)
      ensures rt.freedAt == old(rt.freedAt) + DetachStamps(old(easyHandles), order, old(|rt.calls|))
      ensures |natives| == |order| && forall j | 0 <= j < |order| :: natives[j] == old(order[j].handle)
      ensures rt.calls == old(rt.calls) + Removals(handle, natives)
      ensures rt.unexpected == old(rt.unexpected) + Failures(order, removeResults)
      ensures rt.next == old(rt.next)
    {
      ghost var m := easyHandles;
      var members := KeysOf(easyHandles);
      natives := HandlesOf(members);
      DetachAll(members, natives, removeResults);
      assert rt.OwnedBy(references.Values, this) by {
        forall r | r in references.Values ensures r in rt.owner && rt.owner[r] == this {
          assert r !in m.Values;
        }
      }
      order := members;
      Forget();
    }

    /** easy_handles_.clear(), once every member's reference is released: the group is valid again. */
    method Forget()
      requires rt.Valid() && Injective(references) && (forall r | r in references.Values :: r.Reference?)
      requires rt.OwnedBy(references.Values, this)
      modifies this`easyHandles
      ensures Valid() && easyHandles == map[]
    {
      easyHandles := map[];
      assert easyHandles.Values == {};
    }

    /**
     * Detaches every member (see DetachMembers), then frees the native
     * handle, then releases the option references: each membership reference
     * goes right after its member's remove call, before curl_multi_cleanup,
     * and every option reference after it, since curl_multi_cleanup may still
     * run the callbacks they keep alive. `cleanupResult` is what
     * curl_multi_cleanup answers, and is returned.
     */
    method Cleanup(removeResults: EasyHandle -> int, cleanupResult: int)
      returns (result: int, ghost order: seq<EasyHandle>, ghost natives: seq<Native>)
      requires Valid()
      modifies this, rt, easyHandles.Keys`multi
      ensures Valid()
      ensures result == cleanupResult
      ensures handle == NULL && easyHandles == map[] && references == map[]
      ensures Lists(order, old(easyHandles).Keys)
      ensures forall e | e in order :: e.multi == null
      ensures rt.owner == old(rt.owner) - old(easyHandles).Values - old(references).Values
      ensures rt.released == old(rt.released) + multiset(old(easyHandles).Values) + multiset(old(references).Values)
      ensures rt.freedAt == old(rt.freedAt) + DetachStamps(old(easyHandles), order, old(|rt.calls|))
                                            + Stamp(old(references).Values, |rt.calls|)
      ensures |natives| == |order| && forall j | 0 <= j < |order| :: natives[j] == old(order[j].handle)
      ensures rt.calls == old(rt.calls) + Removals(old(handle), natives) + [MultiCleanup(old(handle))]
      ensures rt.unexpected == old(rt.unexpected) + Failures(order, removeResults)
      ensures rt.next == old(rt.next)
      ensures forall e: EasyHandle | old(allocated(e)) && old(Binds(e)) :: Binds(e)
    {
      order, natives := DetachMembers(removeResults);
      result := Close(cleanupResult);
    }

    /**
     * The second step of cleanup: the native handle is freed
     * (curl_multi_cleanup answers `cleanupResult`, which is returned) and
     * the group's handle becomes null; then the option references are
     * released, after the native call.
     */
    method Close(cleanupResult: int) returns (result: int)
      requires Valid()
      modifies this`handle, this`references, rt
      ensures Valid()
      ensures result == cleanupResult && handle == NULL && references == map[]
      ensures rt.owner == old(rt.owner) - old(references).Values
      ensures rt.released == old(rt.released) + multiset(old(references).Values)
      ensures rt.freedAt == old(rt.freedAt) + Stamp(old(references).Values, |rt.calls|)
      ensures rt.calls == old(rt.calls) + [MultiCleanup(old(handle))]
      ensures rt.unexpected == old(rt.unexpected) && rt.next == old(rt.next)
    {
      ghost var refs := references;
      var h := handle;
      handle := NULL;
      rt.Invoke(MultiCleanup(h));
      result := cleanupResult;
      rt.ReleaseAll(references.Values, this);
      references := map[];
      assert rt.OwnedBy(easyHandles.Values, this) by {
        forall r | r in easyHandles.Values ensures r in rt.owner && rt.owner[r] == this {
          assert r !in refs.Values;
        }
      }
    }

    /** ~multi_handle: cleans up only a group that has not been cleaned up yet. */
    method Finalize(removeResults: EasyHandle -> int, cleanupResult: int)
      returns (ghost order: seq<EasyHandle>, ghost natives: seq<Native>)
      requires Valid()
      modifies this, rt, easyHandles.Keys`multi
      ensures Valid()
      ensures old(handle) == NULL ==> unchanged(this, rt) && forall e | e in old(easyHandles) :: e.multi == old(e.multi)
      ensures old(handle) != NULL ==> handle == NULL && easyHandles == map[] && references == map[]
      ensures old(handle) != NULL ==>
                && Lists(order, old(easyHandles).Keys)
                && (forall e | e in order :: e.multi == null)
                && rt.owner == old(rt.owner) - old(easyHandles).Values - old(references).Values
                && rt.released == old(rt.released) + multiset(old(easyHandles).Values) + multiset(old(references).Values)
                && rt.freedAt == old(rt.freedAt) + DetachStamps(old(easyHandles), order, old(|rt.calls|))
                                                + Stamp(old(references).Values, |rt.calls|)
                && |natives| == |order| && (forall j | 0 <= j < |order| :: natives[j] == old(order[j].handle))
                && rt.calls == old(rt.calls) + Removals(old(handle), natives) + [MultiCleanup(old(handle))]
                && rt.unexpected == old(rt.unexpected) + Failures(order, removeResults)
                && rt.next == old(rt.next)
      ensures forall e: EasyHandle | old(allocated(e)) && old(Binds(e)) :: Binds(e)
    {
      order, natives := [], [];
      if handle != NULL {
        var result;
        result, order, natives := Cleanup(removeResults, cleanupResult);
      }
    }

    /**
     * Stores a fresh reference under the group option `option`. A reference
     * already stored there is released, exactly once; no other option changes.
     */
    method NewReference(option: int) returns (r: Resource)
      requires Valid()
      modifies this`references, rt
      ensures Valid()
      ensures r == Reference(old(rt.next)) && r !in old(rt.owner)
      ensures references == old(references)[option := r]
      ensures rt.owner == (old(rt.owner) - Displaced(old(references), option))[r := this]
      ensures rt.released == old(rt.released) + multiset(Displaced(old(references), option))
      ensures rt.freedAt == if option in old(references) then old(rt.freedAt)[old(references)[option] := |rt.calls|]
                            else old(rt.freedAt)
      ensures rt.next == old(rt.next) + 1
      ensures rt.calls == old(rt.calls) && rt.unexpected == old(rt.unexpected)
    {
      r := rt.NewReference(this);
      references := Put(rt, references, option, r, this);
    }

    /** Releases and forgets the reference under `option`; an absent option is a no-op. */
    method DeleteReference(option: int)
      requires Valid()
      modifies this`references, rt
      ensures Valid()
      ensures references == old(references) - {option}
      ensures rt.owner == old(rt.owner) - Displaced(old(references), option)
      ensures rt.released == old(rt.released) + multiset(Displaced(old(references), option))
      ensures rt.freedAt == if option in old(references) then old(rt.freedAt)[old(references)[option] := |rt.calls|]
                            else old(rt.freedAt)
      ensures option !in old(references) ==> rt.released == old(rt.released)
      ensures rt.next == old(rt.next) && rt.calls == old(rt.calls)
      ensures rt.unexpected == old(rt.unexpected)
    {
      references := Erase(rt, references, option, this);
    }
  }

  /**
   * A native add that fails leaves its membership entry behind with no
   * back-pointer: adding the handle again answers CURLM_ADDED_ALREADY and
   * removing it answers CURLM_OK, both without a native call, and the entry
   * and its reference stay until the group is cleaned up.
   */
  method FailedAddSticks(g: MultiHandle, e: EasyHandle, addResult: int, againResult: int, removeResult: int)
    returns (added: int, again: int, removed: int)
    requires g.Valid() && e.multi == null && e !in g.easyHandles && addResult != CURLM_OK
    modifies g`easyHandles, e`multi, g.rt
    ensures added == addResult && again == CURLM_ADDED_ALREADY && removed == CURLM_OK
    ensures e.multi == null && g.easyHandles == old(g.easyHandles)[e := Reference(old(g.rt.next))]
    ensures g.rt.calls == old(g.rt.calls) + [MultiAddHandle(g.handle, e.handle)]
    ensures g.rt.released == old(g.rt.released)
  {
    added := g.AddHandle(e, addResult);
    again := g.AddHandle(e, againResult);
    removed := g.RemoveHandle(e, removeResult);
  }

  /**
   * A handle attached to a group and then cleaned up leaves the group
   * first: the native remove comes before the native cleanup, and when the
   * remove succeeds the group no longer counts it as a member.
   */
  method AttachThenCleanup(g: MultiHandle, e: EasyHandle, removeResult: int)
    requires g.Valid() && e.Valid() && e.rt == g.rt
    requires e.multi == null && e !in g.easyHandles
    modifies g, e, g.rt
    ensures e.handle == NULL && e.references == map[] && e.slists == map[]
    ensures g.rt.calls == old(g.rt.calls) + [MultiAddHandle(g.handle, old(e.handle)),
                                             MultiRemoveHandle(g.handle, old(e.handle)),
                                             EasyCleanup(old(e.handle))]
    ensures removeResult == CURLM_OK ==> e.multi == null && g.easyHandles == old(g.easyHandles)
    ensures removeResult != CURLM_OK ==> e.multi == g && e in g.easyHandles
  {
    var added := g.AddHandle(e, CURLM_OK);
    CleanupMember(g, e, removeResult);
  }

  /** Easy cleanup of a member of `g`: the remove, then the native cleanup; the membership follows the remove result. */
  method CleanupMember(g: MultiHandle, e: EasyHandle, removeResult: int)
    requires g.Valid() && e.Valid() && e.rt == g.rt
    requires e.multi == g && e in g.easyHandles
    modifies g, e, g.rt
    ensures e.handle == NULL && e.references == map[] && e.slists == map[]
    ensures g.handle == old(g.handle)
    ensures g.rt.calls == old(g.rt.calls) + [MultiRemoveHandle(g.handle, old(e.handle)), EasyCleanup(old(e.handle))]
    ensures removeResult == CURLM_OK ==> e.multi == null && g.easyHandles == old(g.easyHandles) - {e}
    ensures removeResult != CURLM_OK ==> e.multi == g && g.easyHandles == old(g.easyHandles)
  {
    e.Cleanup(removeResult);
  }

  /**
   * Cleaning up one handle releases only what that handle (and its
   * membership) held: a second handle on the same runtime keeps every
   * registry entry live and its own, so it can be cleaned up in turn.
   */
  method CleanupLeavesOthers(e: EasyHandle, other: EasyHandle, removeResult: int)
    requires e != other && e.Valid() && other.Valid() && other.rt == e.rt
    requires e.multi != null ==> e.multi.Valid() && e.multi.rt == e.rt
    modifies e, e.rt, e.multi
    ensures other.Valid()
    ensures other.references == old(other.references) && other.slists == old(other.slists)
  {
    e.Cleanup(removeResult);
  }
}

=== FILE: host.dfy ===
/**
 * What the handle layer talks to: the Lua registry that keeps host values
 * alive (luaX_reference), the libcurl header lists (curl_slist), the libcurl
 * entry points the handles call, and the constants of curl.h they use.
 *
 * Every libcurl call is an opaque step: the Runtime only records that it was
 * made, in order; its status code is chosen by the caller of the model.
 */
module Host {

  /** A native pointer (CURL*, CURLM*, curl_httppost*) as an opaque identity; 0 is NULL. */
  type Native = nat

  const NULL: Native := 0

  // CURLMcode values from curl/multi.h.
  const CURLM_OK: int := 0
  const CURLM_ADDED_ALREADY: int := 7

  // CURLFORMcode values from curl/curl.h.
  const CURL_FORMADD_OK: int := 0
  const CURL_FORMADD_NULL: int := 3
  const CURL_FORMADD_UNKNOWN_OPTION: int := 4

  // CURLformoption values from curl/curl.h (libcurl 7.46.0 and later).
  const CURLFORM_COPYNAME: int := 1
  const CURLFORM_PTRNAME: int := 2
  const CURLFORM_NAMELENGTH: int := 3
  const CURLFORM_COPYCONTENTS: int := 4
  const CURLFORM_PTRCONTENTS: int := 5
  const CURLFORM_CONTENTSLENGTH: int := 6
  const CURLFORM_FILECONTENT: int := 7
  const CURLFORM_FILE: int := 10
  const CURLFORM_BUFFER: int := 11
  const CURLFORM_BUFFERPTR: int := 12
  const CURLFORM_BUFFERLENGTH: int := 13
  const CURLFORM_CONTENTTYPE: int := 14
  const CURLFORM_CONTENTHEADER: int := 15
  const CURLFORM_FILENAME: int := 16
  const CURLFORM_END: int := 17
  const CURLFORM_STREAM: int := 19
  const CURLFORM_CONTENTLEN: int := 20

  /**
   * Something that must be released exactly once: a Lua reference
   * (luaX_reference, released by deleting it) or a header list
   * (curl_slist, released by curl_slist_free_all).
   */
  datatype Resource = Reference(id: nat) | Slist(id: nat)

  /** The value field of one `struct curl_forms` record. */
  datatype FormValue =
    | Text(data: string)        // pointer to the bytes of a Lua string
    | Size(n: int)              // an integer passed in the pointer field
    | Callback(ref: Resource)   // the luaX_reference of a stream callback
    | Headers(list: Resource)   // a curl_slist of part headers
    | Nothing                   // the null pointer of the terminator

  /** One `struct curl_forms` record: an option and its value. */
  datatype FormEntry = FormEntry(option: int, value: FormValue)

  /** A libcurl call made by the handle layer, with the native handles it was given. */
  datatype Call =
    | EasyReset(easy: Native)
    | EasyCleanup(easy: Native)
    | MultiAddHandle(multi: Native, easy: Native)
    | MultiRemoveHandle(multi: Native, easy: Native)
    | MultiCleanup(multi: Native)
    | FormAdd(forms: seq<FormEntry>)
    | FormFree(first: Native)

  /** What the runtime has recorded, as a value: live resources, releases and when they happened, calls and reports. */
  datatype Snapshot = Snapshot(owner: map<Resource, object>, released: multiset<Resource>,
                               freedAt: map<Resource, nat>, calls: seq<Call>, unexpected: seq<int>)

  /** The release times of the resources `rs`, all released when `k` libcurl calls had been made. */
  function Stamp(rs: set<Resource>, k: nat): map<Resource, nat>
  {
    map r | r in rs :: k
  }

  /** Stamping one more resource extends the stamps already given. */
  lemma StampStep(before: map<Resource, nat>, done: set<Resource>, r: Resource, k: nat)
    ensures (before + Stamp(done, k))[r := k] == before + Stamp(done + {r}, k)
  {
  }

  /**
   * The outside world as the handles see it. `owner` maps every live resource
   * to the object responsible for releasing it; `released` is the multiset of
   * everything released so far; `next` numbers fresh resources; `calls` is
   * the ordered log of libcurl calls; `unexpected` is the log of status codes
   * reported through DROMOZOA_UNEXPECTED. `freedAt` orders releases
   * against calls: a resource released when `k` calls had been made maps to
   * `k`, so it was released after `calls[k - 1]` and before `calls[k]`.
   * `madeAt` orders creations the same way: a resource made when `k` calls
   * had been made maps to `k`, so it existed before `calls[k]`.
   */
  class Runtime {
    var owner: map<Resource, object>
    var released: multiset<Resource>
    var next: nat
    var calls: seq<Call>
    var unexpected: seq<int>
    ghost var freedAt: map<Resource, nat>
    ghost var madeAt: map<Resource, nat>

    /** Every live resource was numbered before `next`, so `next` names a fresh one. */
    ghost predicate Valid()
      reads this
    {
      forall r | r in owner :: r.id < next
    }

    /** The recorded state, without the fresh-id counter. */
    ghost function State(): Snapshot
      reads this
    {
      Snapshot(owner, released, freedAt, calls, unexpected)
    }

    /** Each resource of `rs` is live and owned by `who`. */
    ghost predicate OwnedBy(rs: set<Resource>, who: object)
      reads this
    {
      forall r | r in rs :: r in owner && owner[r] == who
    }

    constructor ()
      ensures Valid()
      ensures owner == map[] && released == multiset{} && next == 0
      ensures calls == [] && unexpected == [] && freedAt == map[] && madeAt == map[]
    {
      owner, released, next := map[], multiset{}, 0;
      calls, unexpected := [], [];
      freedAt, madeAt := map[], map[];
    }

    /** `new luaX_reference<>(L, index)`: a fresh reference owned by `who`. */
    method NewReference(who: object) returns (r: Resource)
      requires Valid()
      modifies this
      ensures Valid()
      ensures r == Reference(old(next)) && r !in old(owner)
      ensures owner == old(owner)[r := who] && next == old(next) + 1
      ensures released == old(released) && calls == old(calls) && unexpected == old(unexpected)
      ensures freedAt == old(freedAt) && madeAt == old(madeAt)[r := |calls|]
    {
      r := Reference(next);
      owner := owner[r := who];
      madeAt := madeAt[r := |calls|];
      next := next + 1;
    }

    /**
     * `string_list` built from a non-empty Lua table: a fresh header list,
     * held by the runtime until some handle adopts it.
     */
    method NewList() returns (s: Resource)
      requires Valid()
      modifies this
      ensures Valid()
      ensures s == Slist(old(next)) && s !in old(owner)
      ensures owner == old(owner)[s := this] && next == old(next) + 1
      ensures released == old(released) && calls == old(calls) && unexpected == old(unexpected)
      ensures freedAt == old(freedAt) && madeAt == old(madeAt)[s := |calls|]
    {
      s := Slist(next);
      owner := owner[s := this];
      madeAt := madeAt[s := |calls|];
      next := next + 1;
    }

    /** `string_list::release`: ownership of a pending list passes to `who`. */
    method Adopt(s: Resource, who: object)
      requires s in owner && owner[s] == this
      modifies this
      ensures owner == old(owner)[s := who]
      ensures released == old(released) && next == old(next) && freedAt == old(freedAt)
      ensures calls == old(calls) && unexpected == old(unexpected) && madeAt == old(madeAt)
    {
      owner := owner[s := who];
    }

    /**
     * Deleting a luaX_reference, or curl_slist_free_all. Only the owner of a
     * live resource may release it, so nothing is released twice.
     */
    method Release(r: Resource, who: object)
      requires r in owner && owner[r] == who
      modifies this
      ensures owner == old(owner) - {r}
      ensures released == old(released) + multiset{r}
      ensures freedAt == old(freedAt)[r := |calls|]
      ensures next == old(next) && calls == old(calls) && unexpected == old(unexpected) && madeAt == old(madeAt)
    {
      owner := owner - {r};
      released := released + multiset{r};
      freedAt := freedAt[r := |calls|];
    }

    /** Releases every resource of `rs`, one at a time, each exactly once. */
    method ReleaseAll(rs: set<Resource>, who: object)
      requires OwnedBy(rs, who)
      modifies this
      ensures owner == old(owner) - rs
      ensures released == old(released) + multiset(rs)
      ensures freedAt == old(freedAt) + Stamp(rs, |calls|)
      ensures next == old(next) && calls == old(calls) && unexpected == old(unexpected) && madeAt == old(madeAt)
    {
      var rest := rs;
      while rest != {}
        invariant rest <= rs
        invariant OwnedBy(rest, who)
        invariant owner == old(owner) - (rs - rest)
        invariant released == old(released) + multiset(rs - rest)
        invariant freedAt == old(freedAt) + Stamp(rs - rest, |calls|)
        invariant next == old(next) && calls == old(calls) && unexpected == old(unexpected) && madeAt == old(madeAt)
        decreases rest
      {
        var r :| r in rest;
        Release(r, who);
        assert rs - (rest - {r}) == (rs - rest) + {r};
        StampStep(old(freedAt), rs - rest, r, |calls|);
        rest := rest - {r};
      }
    }

    /** Records a libcurl call. */
    method Invoke(c: Call)
      modifies this
      ensures calls == old(calls) + [c]
      ensures owner == old(owner) && released == old(released) && next == old(next)
      ensures unexpected == old(unexpected) && freedAt == old(freedAt) && madeAt == old(madeAt)
    {
      calls := calls + [c];
    }

    /** DROMOZOA_UNEXPECTED: a status code is reported and nothing else happens. */
    method Report(code: int)
      modifies this
      ensures unexpected == old(unexpected) + [code]
      ensures owner == old(owner) && released == old(released) && next == old(next)
      ensures calls == old(calls) && freedAt == old(freedAt) && madeAt == old(madeAt)
    {
      unexpected := unexpected + [code];
    }
  }
}

=== FILE: httppost.dfy ===
/**
 * httppost_handle: the multipart-form builder. `add` reads (option, value)
 * pairs from the Lua stack and turns each into one or two `curl_forms`
 * records; the builder keeps alive every Lua value whose address libcurl
 * keeps (PTR options and stream callbacks) and every header list it built,
 * until `free` releases them all.
 *
 * The meaning of a call to `add` is the pure function `Walk` over a
 * heap-free picture of the builder (`Parts`); the methods of `FormBuilder`
 * are proved to change the builder exactly as `Walk` and `Field` say.
 */
module Forms {
  import opened Host

  /** A Lua value on the stack, as far as `add` looks at it. */
  datatype Arg =
    | Nil                       // nil, or no value at all past the top of the stack
    | Str(s: string)            // a string, one char per byte of the Lua string, so |s| is its size()
    | Int(n: int)               // an integer
    | Table(items: seq<string>) // a table, by the strings string_list collects from it
    | Other                     // any other value (a function, a boolean, userdata)

  /** How a call returns: with a CURLFORMcode, or by raising a Lua error. */
  datatype Reply = Returned(code: int) | Raised

  /** Whether a string option is followed by a length option carrying the string's size. */
  datatype Paired = Alone | With(lengthOption: int)

  /**
   * What a builder holds, as a value: its references and header lists, its
   * stream count, and the runtime's fresh-id counter and owner map.
   */
  datatype Parts = Parts(references: set<Resource>, slists: set<Resource>, stream: int,
                         next: nat, owner: map<Resource, object>)

  /** The outcome of one field or of a whole walk: the reply, the records built, the holdings after. */
  datatype Step = Step(reply: Reply, forms: seq<FormEntry>, after: Parts)

  const OK: Reply := Returned(CURL_FORMADD_OK)

  /**
   * The builder's invariant on its holdings: every live resource was
   * numbered before `next`, the references and lists it holds are live and
   * its own, and there are never more streams than references.
   */
  ghost predicate Fits(h: Parts, who: object)
  {
    && (forall r | r in h.owner :: r.id < h.next)
    && (forall r | r in h.references :: r.Reference? && r in h.owner && h.owner[r] == who)
    && (forall s | s in h.slists :: s.Slist? && s in h.owner && h.owner[s] == who)
    && 0 <= h.stream <= |h.references|
  }

  /** Stack slot `i` of the pairs; a slot past the top reads as nil (lua_isnoneornil). */
  function ValueAt(args: seq<Arg>, i: nat): Arg
  {
    if i < |args| then args[i] else Nil
  }

  /** The records for string `s` under `option`, followed by its length when paired. */
  function Texts(option: int, paired: Paired, s: string): seq<FormEntry>
  {
    [FormEntry(option, Text(s))] + (if paired.With? then [FormEntry(paired.lengthOption, Size(|s|))] else [])
  }

  /** Holdings `h` with the fresh reference `Reference(h.next)`, owned by `who`, added. */
  function WithReference(h: Parts, who: object): Parts
  {
    var r := Reference(h.next);
    h.(references := h.references + {r}, next := h.next + 1, owner := h.owner[r := who])
  }

  /** Holdings `h` with the fresh header list `Slist(h.next)`, owned by `who`, added. */
  function WithSlist(h: Parts, who: object): Parts
  {
    var s := Slist(h.next);
    h.(slists := h.slists + {s}, next := h.next + 1, owner := h.owner[s := who])
  }

  /** add_string: a copied string (libcurl copies it, so nothing is kept). */
  function StringField(option: int, paired: Paired, value: Arg, h: Parts): Step
  {
    match value
    case Nil => Step(Returned(CURL_FORMADD_NULL), [], h)
    case Str(s) => Step(OK, Texts(option, paired, s), h)
    case _ => Step(Raised, [], h)
  }

  /** add_string_ref: a string libcurl points into, so the string is kept by a fresh reference. */
  function StringRefField(option: int, paired: Paired, value: Arg, h: Parts, who: object): Step
  {
    match value
    case Nil => Step(Returned(CURL_FORMADD_NULL), [], h)
    case Str(s) => Step(OK, Texts(option, paired, s), WithReference(h, who))
    case _ => Step(Raised, [], h)
  }

  /** Whether `n` fits in a size_t of 64 bits. */
  predicate IsSize(n: int)
  {
    0 <= n < 0x1_0000_0000_0000_0000
  }

  /** add_integer<size_t>: a length passed in the pointer field; a missing value is an error. */
  function IntegerField(option: int, value: Arg, h: Parts): Step
  {
    if value.Int? && IsSize(value.n) then Step(OK, [FormEntry(option, Size(value.n))], h)
    else Step(Raised, [], h)
  }

  /** add_function_ref: any non-nil value becomes a stream callback, kept by a fresh reference. */
  function FunctionRefField(option: int, value: Arg, h: Parts, who: object): Step
  {
    if value.Nil? then Step(Returned(CURL_FORMADD_NULL), [], h)
    else
      var h' := WithReference(h, who);
      Step(OK, [FormEntry(option, Callback(Reference(h.next)))], h'.(stream := h.stream + 1))
  }

  /** add_slist: a table of header lines becomes a header list the builder keeps; an empty one is null. */
  function SlistField(option: int, value: Arg, h: Parts, who: object): Step
  {
    match value
    case Nil => Step(Returned(CURL_FORMADD_NULL), [], h)
    case Table(items) =>
      if items == [] then Step(Returned(CURL_FORMADD_NULL), [], h)
      else Step(OK, [FormEntry(option, Headers(Slist(h.next)))], WithSlist(h, who))
    case _ => Step(Raised, [], h)
  }

  /** The options `add` knows; any other is CURL_FORMADD_UNKNOWN_OPTION. */
  predicate Known(option: int)
  {
    option in {CURLFORM_COPYNAME, CURLFORM_PTRNAME, CURLFORM_COPYCONTENTS, CURLFORM_PTRCONTENTS,
               CURLFORM_CONTENTLEN, CURLFORM_CONTENTSLENGTH, CURLFORM_FILECONTENT, CURLFORM_FILE,
               CURLFORM_CONTENTTYPE, CURLFORM_FILENAME, CURLFORM_BUFFER, CURLFORM_BUFFERPTR,
               CURLFORM_STREAM, CURLFORM_CONTENTHEADER}
  }

  /** The options whose string is followed by a length record. */
  predicate TakesLength(option: int)
  {
    option in {CURLFORM_COPYNAME, CURLFORM_PTRNAME, CURLFORM_COPYCONTENTS, CURLFORM_PTRCONTENTS, CURLFORM_BUFFERPTR}
  }

  /** The options whose value is a string, copied or kept by a reference. */
  predicate TakesString(option: int)
  {
    option in {CURLFORM_COPYNAME, CURLFORM_PTRNAME, CURLFORM_COPYCONTENTS, CURLFORM_PTRCONTENTS,
               CURLFORM_FILECONTENT, CURLFORM_FILE, CURLFORM_CONTENTTYPE, CURLFORM_FILENAME,
               CURLFORM_BUFFER, CURLFORM_BUFFERPTR}
  }

  /** The options whose value is a length. */
  predicate TakesSize(option: int)
  {
    option in {CURLFORM_CONTENTLEN, CURLFORM_CONTENTSLENGTH}
  }

  /**
   * The values an option accepts: a string for the string options, a
   * size_t for the length options, anything but nil for a stream, and a
   * table with at least one header line for the part headers.
   */
  predicate Accepts(option: int, value: Arg)
  {
    || (TakesString(option) && value.Str?)
    || (TakesSize(option) && value.Int? && IsSize(value.n))
    || (option == CURLFORM_STREAM && !value.Nil?)
    || (option == CURLFORM_CONTENTHEADER && value.Table? && value.items != [])
  }

  /** The options whose value the builder keeps alive with a reference. */
  predicate KeepsValue(option: int)
  {
    option in {CURLFORM_PTRNAME, CURLFORM_PTRCONTENTS, CURLFORM_BUFFERPTR, CURLFORM_STREAM}
  }

  /**
   * One pair of `add`: the option picks a helper, which reads the value.
   * The field answers OK exactly when the option accepts the value, NULL
   * for a nil value (or an empty header table) of a known option other than
   * a length, UNKNOWN_OPTION exactly for an unknown option, and raises
   * otherwise. A field that does not answer OK builds nothing and keeps
   * nothing. One that does builds the string's record followed, for the
   * options with a length, by the length option carrying the string's size;
   * or the length record; or the stream record pointing at a fresh
   * reference; or the header record pointing at a fresh list. It keeps a
   * reference exactly for the PTR and stream options and a header list
   * exactly for CONTENTHEADER, and counts a stream exactly for STREAM.
   */
  function Field(option: int, value: Arg, h: Parts, who: object): (r: Step)
    ensures r.reply != OK ==> r.forms == [] && r.after == h
    ensures r.reply == OK <==> Accepts(option, value)
    ensures r.reply == Returned(CURL_FORMADD_UNKNOWN_OPTION) <==> !Known(option)
    ensures r.reply.Returned? ==> r.reply.code in {CURL_FORMADD_OK, CURL_FORMADD_NULL, CURL_FORMADD_UNKNOWN_OPTION}
    ensures r.reply == Returned(CURL_FORMADD_NULL) <==>
              Known(option) && !TakesSize(option) && (value.Nil? || (option == CURLFORM_CONTENTHEADER && value == Table([])))
    ensures r.reply == OK && option in {CURLFORM_COPYNAME, CURLFORM_PTRNAME} ==>
              value.Str? && r.forms == [FormEntry(option, Text(value.s)), FormEntry(CURLFORM_NAMELENGTH, Size(|value.s|))]
    ensures r.reply == OK && option in {CURLFORM_COPYCONTENTS, CURLFORM_PTRCONTENTS} ==>
              value.Str? && r.forms == [FormEntry(option, Text(value.s)), FormEntry(CURLFORM_CONTENTLEN, Size(|value.s|))]
    ensures r.reply == OK && option == CURLFORM_BUFFERPTR ==>
              value.Str? && r.forms == [FormEntry(option, Text(value.s)), FormEntry(CURLFORM_BUFFERLENGTH, Size(|value.s|))]
    ensures r.reply == OK && TakesString(option) && !TakesLength(option) ==>
              value.Str? && r.forms == [FormEntry(option, Text(value.s))]
    ensures r.reply == OK && TakesSize(option) ==> value.Int? && r.forms == [FormEntry(option, Size(value.n))]
    ensures r.reply == OK && option == CURLFORM_STREAM ==> r.forms == [FormEntry(option, Callback(Reference(h.next)))]
    ensures r.reply == OK && option == CURLFORM_CONTENTHEADER ==> r.forms == [FormEntry(option, Headers(Slist(h.next)))]
    ensures r.reply == OK ==>
              && 1 <= |r.forms| <= 2 && r.forms[0].option == option
              && (|r.forms| == 2 <==> TakesLength(option))
    ensures forall i | 0 <= i < |r.forms| :: r.forms[i].option != CURLFORM_END
    ensures r.reply == OK ==>
              && r.after.references == h.references + (if KeepsValue(option) then {Reference(h.next)} else {})
              && r.after.slists == h.slists + (if option == CURLFORM_CONTENTHEADER then {Slist(h.next)} else {})
              && r.after.stream == h.stream + (if option == CURLFORM_STREAM then 1 else 0)
              && r.after.next == h.next + (if KeepsValue(option) || option == CURLFORM_CONTENTHEADER then 1 else 0)
  {
    if option == CURLFORM_COPYNAME then StringField(option, With(CURLFORM_NAMELENGTH), value, h)
    else if option == CURLFORM_PTRNAME then StringRefField(option, With(CURLFORM_NAMELENGTH), value, h, who)
    else if option == CURLFORM_COPYCONTENTS then StringField(option, With(CURLFORM_CONTENTLEN), value, h)
    else if option == CURLFORM_PTRCONTENTS then StringRefField(option, With(CURLFORM_CONTENTLEN), value, h, who)
    else if option == CURLFORM_CONTENTLEN || option == CURLFORM_CONTENTSLENGTH then IntegerField(option, value, h)
    else if option in {CURLFORM_FILECONTENT, CURLFORM_FILE, CURLFORM_CONTENTTYPE, CURLFORM_FILENAME, CURLFORM_BUFFER}
    then StringField(option, Alone, value, h)
    else if option == CURLFORM_BUFFERPTR then StringRefField(option, With(CURLFORM_BUFFERLENGTH), value, h, who)
    else if option == CURLFORM_STREAM then FunctionRefField(option, value, h, who)
    else if option == CURLFORM_CONTENTHEADER then SlistField(option, value, h, who)
    else Step(Returned(CURL_FORMADD_UNKNOWN_OPTION), [], h)
  }

  /**
   * `add` from pair slot `k` on, with records `forms` already built and
   * holdings `h`: options sit at even slots, each value in the slot after
   * its option. It ends at the top of the stack or at CURLFORM_END with OK
   * (curl_formadd comes next), at the first field that is not OK with that
   * field's reply, and with a Lua error at an option that is not an
   * integer. Nothing built or kept before the end is undone.
   */
  function Walk(args: seq<Arg>, k: nat, forms: seq<FormEntry>, h: Parts, who: object): (r: Step)
    ensures |forms| <= |r.forms| && r.forms[..|forms|] == forms
    ensures forall i | |forms| <= i < |r.forms| :: r.forms[i].option != CURLFORM_END
    ensures r.reply != OK ==> r.reply == Raised || r.reply.code in {CURL_FORMADD_NULL, CURL_FORMADD_UNKNOWN_OPTION}
    ensures h.references <= r.after.references && h.slists <= r.after.slists
    ensures h.stream <= r.after.stream && h.next <= r.after.next
    decreases |args| - k
  {
    if k >= |args| then Step(OK, forms, h)
    else match args[k]
      case Int(option) =>
        if option == CURLFORM_END then Step(OK, forms, h)
        else
          var s := Field(option, ValueAt(args, k + 1), h, who);
          if s.reply != OK then Step(s.reply, forms + s.forms, s.after)
          else Walk(args, k + 2, forms + s.forms, s.after, who)
      case _ => Step(Raised, forms, h)
  }

  /**
   * The fields `opts[i]`/`vals[i]` taken in order, each seeing the holdings
   * the one before left: their records concatenated, and the holdings after
   * the last.
   */
  ghost function Fields(opts: seq<int>, vals: seq<Arg>, h: Parts, who: object): Step
    requires |opts| == |vals|
    decreases |opts|
  {
    if opts == [] then Step(OK, [], h)
    else
      var s := Field(opts[0], vals[0], h, who);
      var rest := Fields(opts[1..], vals[1..], s.after, who);
      Step(OK, s.forms + rest.forms, rest.after)
  }

  /**
   * When the pairs `opts[i]`/`vals[i]` fill the stack and each option
   * accepts its value, and the stack ends after them or continues with
   * CURLFORM_END, the walk from pair `j` answers OK with the records of the
   * remaining fields concatenated after those already built.
   */
  lemma {:induction false} WalkAccepted(args: seq<Arg>, opts: seq<int>, vals: seq<Arg>, j: nat,
                                        forms: seq<FormEntry>, h: Parts, who: object)
    requires |opts| == |vals| && j <= |opts| && 2 * |opts| <= |args|
    requires forall i | 0 <= i < |opts| :: args[2 * i] == Int(opts[i]) && args[2 * i + 1] == vals[i]
    requires forall i | 0 <= i < |opts| :: opts[i] != CURLFORM_END && Accepts(opts[i], vals[i])
    requires |args| == 2 * |opts| || args[2 * |opts|] == Int(CURLFORM_END)
    ensures var f := Fields(opts[j..], vals[j..], h, who);
            Walk(args, 2 * j, forms, h, who) == Step(OK, forms + f.forms, f.after)
    decreases |opts| - j
  {
    if j == |opts| {
      assert opts[j..] == [] && forms + [] == forms;
    } else {
      var s := Field(opts[j], vals[j], h, who);
      assert args[2 * j] == Int(opts[j]) && ValueAt(args, 2 * j + 1) == vals[j];
      WalkAccepted(args, opts, vals, j + 1, forms + s.forms, s.after, who);
      assert opts[j..][1..] == opts[j + 1..] && vals[j..][1..] == vals[j + 1..];
      var rest := Fields(opts[j + 1..], vals[j + 1..], s.after, who);
      assert forms + s.forms + rest.forms == forms + (s.forms + rest.forms);
    }
  }

  /** Keeping a fresh reference, and counting it as a stream or not, keeps the invariant. */
  lemma ReferenceFits(h: Parts, who: object, streams: int)
    requires Fits(h, who) && 0 <= streams <= 1
    ensures Fits(WithReference(h, who).(stream := h.stream + streams), who)
  {
    assert Reference(h.next) !in h.references by {
      assert Reference(h.next) !in h.owner;
    }
  }

  /** Keeping a fresh header list keeps the invariant. */
  lemma SlistFits(h: Parts, who: object)
    requires Fits(h, who)
    ensures Fits(WithSlist(h, who), who)
  {
  }

  /** A field either keeps nothing, or one fresh reference (counted as a stream or not), or one fresh list. */
  lemma FieldShape(option: int, value: Arg, h: Parts, who: object)
    ensures var after := Field(option, value, h, who).after;
            || after == h
            || after == WithReference(h, who).(stream := h.stream)
            || after == WithReference(h, who).(stream := h.stream + 1)
            || after == WithSlist(h, who)
  {
  }

  /** A field keeps the builder's invariant: what it keeps is fresh and the builder's own. */
  lemma FieldFits(option: int, value: Arg, h: Parts, who: object)
    requires Fits(h, who)
    ensures Fits(Field(option, value, h, who).after, who)
  {
    FieldShape(option, value, h, who);
    ReferenceFits(h, who, 0);
    ReferenceFits(h, who, 1);
    SlistFits(h, who);
  }

  /** Every walk keeps the builder's invariant, wherever it stops. */
  lemma {:induction false} WalkFits(args: seq<Arg>, k: nat, forms: seq<FormEntry>, h: Parts, who: object)
    requires Fits(h, who)
    ensures Fits(Walk(args, k, forms, h, who).after, who)
    decreases |args| - k
  {
    if k < |args| && args[k].Int? && args[k].n != CURLFORM_END {
      var s := Field(args[k].n, ValueAt(args, k + 1), h, who);
      FieldFits(args[k].n, ValueAt(args, k + 1), h, who);
      if s.reply == OK {
        WalkFits(args, k + 2, forms + s.forms, s.after, who);
      }
    }
  }

  /**
   * Two stream parts in one call count two streams and keep two distinct
   * references, one per callback.
   */
  lemma TwoStreams(f: Arg, g: Arg, h: Parts, who: object)
    requires f != Nil && g != Nil
    ensures var w := Walk([Int(CURLFORM_STREAM), f, Int(CURLFORM_STREAM), g], 0, [], h, who);
            && w.reply == OK
            && w.after.stream == h.stream + 2
            && w.after.references == h.references + {Reference(h.next), Reference(h.next + 1)}
            && w.forms == [FormEntry(CURLFORM_STREAM, Callback(Reference(h.next))),
                           FormEntry(CURLFORM_STREAM, Callback(Reference(h.next + 1)))]
  {
    var args := [Int(CURLFORM_STREAM), f, Int(CURLFORM_STREAM), g];
    var s := Field(CURLFORM_STREAM, f, h, who);
    assert Walk(args, 0, [], h, who) == Walk(args, 2, [] + s.forms, s.after, who);
    assert [] + s.forms == s.forms;
    var t := Field(CURLFORM_STREAM, g, s.after, who);
    assert Walk(args, 2, s.forms, s.after, who) == Walk(args, 4, s.forms + t.forms, t.after, who);
  }

  /** Pairs after a CURLFORM_END option are never looked at. */
  lemma {:induction false} EndIgnoresRest(pairs: seq<Arg>, rest: seq<Arg>, k: nat,
                                          forms: seq<FormEntry>, h: Parts, who: object)
    requires |pairs| % 2 == 0 && k % 2 == 0 && k <= |pairs|
    ensures Walk(pairs + [Int(CURLFORM_END)] + rest, k, forms, h, who)
         == Walk(pairs + [Int(CURLFORM_END)], k, forms, h, who)
    decreases |pairs| - k
  {
    var a := pairs + [Int(CURLFORM_END)] + rest;
    var b := pairs + [Int(CURLFORM_END)];
    if k < |pairs| {
      assert a[k] == b[k] == pairs[k];
      assert ValueAt(a, k + 1) == ValueAt(b, k + 1) == pairs[k + 1];
      if pairs[k].Int? && pairs[k].n != CURLFORM_END {
        var s := Field(pairs[k].n, pairs[k + 1], h, who);
        if s.reply == OK {
          EndIgnoresRest(pairs, rest, k + 2, forms + s.forms, s.after, who);
        }
      }
    } else {
      assert a[k] == b[k] == Int(CURLFORM_END);
    }
  }

  /**
   * Once some pair fails or raises, whatever follows it is never looked at:
   * the first failure decides the reply and what is kept.
   */
  lemma {:induction false} FailureIgnoresRest(pairs: seq<Arg>, rest: seq<Arg>, k: nat,
                                              forms: seq<FormEntry>, h: Parts, who: object)
    requires |pairs| % 2 == 0 && k % 2 == 0
    requires Walk(pairs, k, forms, h, who).reply != OK
    ensures Walk(pairs + rest, k, forms, h, who) == Walk(pairs, k, forms, h, who)
    decreases |pairs| - k
  {
    var a := pairs + rest;
    assert a[k] == pairs[k];
    assert ValueAt(a, k + 1) == ValueAt(pairs, k + 1);
    if pairs[k].Int? && pairs[k].n != CURLFORM_END {
      var s := Field(pairs[k].n, pairs[k + 1], h, who);
      if s.reply == OK {
        FailureIgnoresRest(pairs, rest, k + 2, forms + s.forms, s.after, who);
      }
    }
  }

  /**
   * httppost_handle: the native chain `first`/`last` that curl_formadd
   * extends, the references and header lists the chain points into, and
   * the number of stream parts.
   */
  class FormBuilder {
    const rt: Runtime
    var first: Native
    var last: Native
    var references: set<Resource>
    var slists: set<Resource>
    var stream: int

    /** The builder's holdings, as a value. */
    ghost function Holdings(): Parts
      reads this, rt
    {
      Parts(references, slists, stream, rt.next, rt.owner)
    }

    ghost predicate Valid()
      reads this, rt
    {
      Fits(Holdings(), this)
    }

    /** A fresh builder: a null chain, nothing kept, no streams. */
    constructor (rt: Runtime)
      requires rt.Valid()
      ensures Valid() && this.rt == rt
      ensures first == NULL && last == NULL && references == {} && slists == {} && stream == 0
    {
      this.rt := rt;
      first, last := NULL, NULL;
      references, slists := {}, {};
      stream := 0;
    }

    /** new_reference: a fresh reference to a stack value, kept until `Free`. */
    method NewReference() returns (r: Resource)
      requires Valid()
      modifies this`references, rt
      ensures Valid()
      ensures r == Reference(old(rt.next)) && r !in old(rt.owner) && r !in old(references)
      ensures Holdings() == WithReference(old(Holdings()), this)
      ensures rt.released == old(rt.released) && rt.freedAt == old(rt.freedAt)
      ensures rt.calls == old(rt.calls) && rt.unexpected == old(rt.unexpected)
    {
      r := rt.NewReference(this);
      references := references + {r};
    }

    /** save_slist: takes ownership of a header list that nothing owns yet. */
    method SaveSlist(s: Resource)
      requires Valid()
      requires s.Slist? && s in rt.owner && rt.owner[s] == rt
      modifies this`slists, rt
      ensures Valid()
      ensures slists == old(slists) + {s} && s !in old(slists)
      ensures rt.owner == old(rt.owner)[s := this]
      ensures rt.released == old(rt.released) && rt.next == old(rt.next) && rt.freedAt == old(rt.freedAt)
      ensures rt.calls == old(rt.calls) && rt.unexpected == old(rt.unexpected)
    {
      rt.Adopt(s, this);
      slists := slists + {s};
    }

    /** add_string, both overloads: appends the records for a copied string; nothing changes. */
    method AddString(forms: seq<FormEntry>, value: Arg, option: int, paired: Paired)
      returns (reply: Reply, forms': seq<FormEntry>)
      ensures var s := StringField(option, paired, value, Holdings());
              reply == s.reply && forms' == forms + s.forms && s.after == Holdings()
    {
      if value.Nil? {
        return Returned(CURL_FORMADD_NULL), forms;
      }
      if !value.Str? {
        return Raised, forms;
      }
      forms' := forms + [FormEntry(option, Text(value.s))];
      if paired.With? {
        forms' := forms' + [FormEntry(paired.lengthOption, Size(|value.s|))];
      }
      reply := OK;
    }

    /** add_string_ref, both overloads: as add_string, but the string is kept by a fresh reference. */
    method AddStringRef(forms: seq<FormEntry>, value: Arg, option: int, paired: Paired)
      returns (reply: Reply, forms': seq<FormEntry>)
      requires Valid()
      modifies this`references, rt
      ensures Valid()
      ensures var s := StringRefField(option, paired, value, old(Holdings()), this);
              reply == s.reply && forms' == forms + s.forms && Holdings() == s.after
      ensures rt.released == old(rt.released) && rt.freedAt == old(rt.freedAt)
      ensures rt.calls == old(rt.calls) && rt.unexpected == old(rt.unexpected)
    {
      if value.Nil? {
        return Returned(CURL_FORMADD_NULL), forms;
      }
      if !value.Str? {
        return Raised, forms;
      }
      var _ := NewReference();
      forms' := forms + [FormEntry(option, Text(value.s))];
      if paired.With? {
        forms' := forms' + [FormEntry(paired.lengthOption, Size(|value.s|))];
      }
      reply := OK;
    }

    /** add_integer<size_t>: appends a length record; nothing changes. */
    method AddInteger(forms: seq<FormEntry>, value: Arg, option: int)
      returns (reply: Reply, forms': seq<FormEntry>)
      ensures var s := IntegerField(option, value, Holdings());
              reply == s.reply && forms' == forms + s.forms && s.after == Holdings()
    {
      if !value.Int? || !IsSize(value.n) {
        return Raised, forms;
      }
      forms' := forms + [FormEntry(option, Size(value.n))];
      reply := OK;
    }

    /** add_function_ref: keeps the callback by a fresh reference and counts one more stream. */
    method AddFunctionRef(forms: seq<FormEntry>, value: Arg, option: int)
      returns (reply: Reply, forms': seq<FormEntry>)
      requires Valid()
      modifies this`references, this`stream, rt
      ensures Valid()
      ensures var s := FunctionRefField(option, value, old(Holdings()), this);
              reply == s.reply && forms' == forms + s.forms && Holdings() == s.after
      ensures rt.released == old(rt.released) && rt.freedAt == old(rt.freedAt)
      ensures rt.calls == old(rt.calls) && rt.unexpected == old(rt.unexpected)
    {
      if value.Nil? {
        return Returned(CURL_FORMADD_NULL), forms;
      }
      var ref := NewReference();
      forms' := forms + [FormEntry(option, Callback(ref))];
      stream := stream + 1;
      reply := OK;
    }

    /** add_slist: a non-empty table becomes a header list the builder keeps; otherwise null. */
    method AddSlist(forms: seq<FormEntry>, value: Arg, option: int)
      returns (reply: Reply, forms': seq<FormEntry>)
      requires Valid()
      modifies this`slists, rt
      ensures Valid()
      ensures var s := SlistField(option, value, old(Holdings()), this);
              reply == s.reply && forms' == forms + s.forms && Holdings() == s.after
      ensures rt.released == old(rt.released) && rt.freedAt == old(rt.freedAt)
      ensures rt.calls == old(rt.calls) && rt.unexpected == old(rt.unexpected)
    {
      if !value.Nil? {
        if !value.Table? {
          return Raised, forms;
        }
        if value.items != [] {
          var list := rt.NewList();
          SaveSlist(list);
          forms' := forms + [FormEntry(option, Headers(list))];
          return OK, forms';
        }
      }
      return Returned(CURL_FORMADD_NULL), forms;
    }

    /** The switch of `add`: one pair handed to the helper its option names. */
    method Dispatch(forms: seq<FormEntry>, option: int, value: Arg)
      returns (reply: Reply, forms': seq<FormEntry>)
      requires Valid()
      modifies this`references, this`slists, this`stream, rt
      ensures Valid()
      ensures var s := Field(option, value, old(Holdings()), this);
              reply == s.reply && forms' == forms + s.forms && Holdings() == s.after
      ensures rt.released == old(rt.released) && rt.freedAt == old(rt.freedAt)
      ensures rt.calls == old(rt.calls) && rt.unexpected == old(rt.unexpected)
    {
      if option == CURLFORM_COPYNAME {
        reply, forms' := AddString(forms, value, option, With(CURLFORM_NAMELENGTH));
      } else if option == CURLFORM_PTRNAME {
        reply, forms' := AddStringRef(forms, value, option, With(CURLFORM_NAMELENGTH));
      } else if option == CURLFORM_COPYCONTENTS {
        reply, forms' := AddString(forms, value, option, With(CURLFORM_CONTENTLEN));
      } else if option == CURLFORM_PTRCONTENTS {
        reply, forms' := AddStringRef(forms, value, option, With(CURLFORM_CONTENTLEN));
      } else if option == CURLFORM_CONTENTLEN || option == CURLFORM_CONTENTSLENGTH {
        reply, forms' := AddInteger(forms, value, option);
      } else if option in {CURLFORM_FILECONTENT, CURLFORM_FILE, CURLFORM_CONTENTTYPE, CURLFORM_FILENAME, CURLFORM_BUFFER} {
        reply, forms' := AddString(forms, value, option, Alone);
      } else if option == CURLFORM_BUFFERPTR {
        reply, forms' := AddStringRef(forms, value, option, With(CURLFORM_BUFFERLENGTH));
      } else if option == CURLFORM_STREAM {
        reply, forms' := AddFunctionRef(forms, value, option);
      } else if option == CURLFORM_CONTENTHEADER {
        reply, forms' := AddSlist(forms, value, option);
      } else {
        reply, forms' := Returned(CURL_FORMADD_UNKNOWN_OPTION), forms;
      }
    }

    /**
     * add: walks the pairs `args` (stack slots 2, 3, ... of the call) as
     * `Walk` says. If the walk ends OK, the records and one terminating
     * CURLFORM_END record go to curl_formadd, whose code is returned and
     * which leaves the chain at `newFirst`/`newLast`; otherwise the walk's
     * reply stands and curl_formadd is not called. What the walk kept stays
     * kept either way.
     */
    method Add(args: seq<Arg>, formAddResult: int, newFirst: Native, newLast: Native) returns (reply: Reply)
      requires Valid()
      modifies this, rt
      ensures Valid()
      ensures var w := Walk(args, 0, [], old(Holdings()), this);
              && Holdings() == w.after
              && (if w.reply == OK then
                    && reply == Returned(formAddResult)
                    && rt.calls == old(rt.calls) + [FormAdd(w.forms + [FormEntry(CURLFORM_END, Nothing)])]
                    && first == newFirst && last == newLast
                  else
                    && reply == w.reply && rt.calls == old(rt.calls)
                    && first == old(first) && last == old(last))
      ensures rt.released == old(rt.released) && rt.freedAt == old(rt.freedAt) && rt.unexpected == old(rt.unexpected)
    {
      var forms := [];
      var k := 0;
      while k < |args|
        invariant Valid()
        invariant Walk(args, k, forms, Holdings(), this) == Walk(args, 0, [], old(Holdings()), this)
        invariant first == old(first) && last == old(last)
        invariant rt.released == old(rt.released) && rt.freedAt == old(rt.freedAt)
        invariant rt.calls == old(rt.calls) && rt.unexpected == old(rt.unexpected)
        decreases |args| - k
      {
        if !args[k].Int? {
          return Raised;
        }
        var option := args[k].n;
        if option == CURLFORM_END {
          break;
        }
        var result;
        result, forms := Dispatch(forms, option, ValueAt(args, k + 1));
        if result != OK {
          return result;
        }
        k := k + 2;
      }
      rt.Invoke(FormAdd(forms + [FormEntry(CURLFORM_END, Nothing)]));
      first, last := newFirst, newLast;
      reply := Returned(formAddResult);
    }

    /**
     * free: nulls the chain and hands the old one to curl_formfree, then
     * releases every kept reference and header list exactly once, after
     * curl_formfree, and resets the stream count.
     */
    method Free()
      requires Valid()
      modifies this, rt
      ensures Valid()
      ensures first == NULL && last == NULL && references == {} && slists == {} && stream == 0
      ensures rt.calls == old(rt.calls) + [FormFree(old(first))]
      ensures rt.owner == old(rt.owner) - old(references) - old(slists)
      ensures rt.released == old(rt.released) + multiset(old(references)) + multiset(old(slists))
      ensures rt.freedAt == old(rt.freedAt) + Stamp(old(references), |rt.calls|) + Stamp(old(slists), |rt.calls|)
      ensures rt.next == old(rt.next) && rt.unexpected == old(rt.unexpected)
    {
      var chain := first;
      first, last := NULL, NULL;
      rt.Invoke(FormFree(chain));
      rt.ReleaseAll(references, this);
      references := {};
      rt.ReleaseAll(slists, this);
      slists := {};
      stream := 0;
    }

    /** ~httppost_handle: frees only a builder whose chain is not null. */
    method Finalize()
      requires Valid()
      modifies this, rt
      ensures Valid()
      ensures old(first) == NULL ==> unchanged(this, rt)
      ensures old(first) != NULL ==>
                && first == NULL && last == NULL && references == {} && slists == {} && stream == 0
                && rt.calls == old(rt.calls) + [FormFree(old(first))]
                && rt.owner == old(rt.owner) - old(references) - old(slists)
                && rt.released == old(rt.released) + multiset(old(references)) + multiset(old(slists))
                && rt.freedAt == old(rt.freedAt) + Stamp(old(references), |rt.calls|) + Stamp(old(slists), |rt.calls|)
                && rt.next == old(rt.next) && rt.unexpected == old(rt.unexpected)
    {
      if first != NULL {
        Free();
      }
    }
  }
}

=== FILE: registry.dfy ===
/**
 * The per-option registries: `std::map<option, resource>` fields of the
 * easy and multi handles, where installing under a key that is in use
 * releases the old resource first, and erasing an absent key does nothing.
 */
module Registry {
  import opened Host

  /** No two keys share one resource: releasing every entry releases each resource once. */
  ghost predicate Injective<K, V>(m: map<K, V>)
  {
    forall a, b | a in m && b in m && a != b :: m[a] != m[b]
  }

  /** What installing or erasing under `k` releases: the entry already there, if any. */
  function Displaced<K, V>(m: map<K, V>, k: K): (d: set<V>)
    ensures |d| <= 1 && d <= m.Values
    ensures d == {} <==> k !in m
    ensures k in m ==> m[k] in d
  {
    if k in m then {m[k]} else {}
  }

  /** In an injective registry there are as many distinct resources as entries. */
  lemma {:induction false} ValuesMatchEntries<K, V>(m: map<K, V>)
    requires Injective(m)
    ensures |m.Values| == |m|
    decreases |m|
  {
    if m != map[] {
      var k :| k in m;
      var rest := m - {k};
      assert Injective(rest);
      ValuesMatchEntries(rest);
      assert rest.Values == m.Values - {m[k]} by {
        forall v | v in m.Values ensures v in rest.Values || v == m[k] {
          var j :| j in m && m[j] == v;
          if j != k { assert j in rest; }
        }
      }
      assert m.Keys == rest.Keys + {k};
    }
  }

  /**
   * Installing a resource that no entry holds keeps the registry injective;
   * the displaced resource leaves it and the new one enters.
   */
  lemma InstallValues<K, V>(m: map<K, V>, k: K, v: V)
    requires Injective(m) && v !in m.Values
    ensures Injective(m[k := v])
    ensures m[k := v].Values == (m.Values - Displaced(m, k)) + {v}
  {
    var m' := m[k := v];
    forall w | w in m.Values - Displaced(m, k) ensures w in m'.Values {
      var j :| j in m && m[j] == w;
      assert j != k;
      assert m'[j] == w;
    }
    forall w | w in m'.Values ensures w == v || w in m.Values - Displaced(m, k) {
      var j :| j in m' && m'[j] == w;
      if j != k { assert m[j] == w; }
    }
    assert k in m' && m'[k] == v;
  }

  /** Erasing a key keeps the registry injective and removes only that key's resource. */
  lemma EraseValues<K, V>(m: map<K, V>, k: K)
    requires Injective(m)
    ensures Injective(m - {k})
    ensures (m - {k}).Values == m.Values - Displaced(m, k)
  {
    var m' := m - {k};
    forall w | w in m.Values - Displaced(m, k) ensures w in m'.Values {
      var j :| j in m && m[j] == w;
      assert j != k;
      assert m'[j] == w;
    }
  }

  /**
   * Installs `r`, already owned by `who` and held by no entry, under `k`:
   * the entry `k` held before, if any, is released first (find; insert, or
   * delete the old value and assign).
   */
  method Put<K>(rt: Runtime, m: map<K, Resource>, k: K, r: Resource, who: object)
    returns (m': map<K, Resource>)
    requires rt.Valid() && Injective(m) && r !in m.Values
    requires rt.OwnedBy(m.Values + {r}, who)
    modifies rt
    ensures rt.Valid()
    ensures m' == m[k := r] && Injective(m')
    ensures m'.Values == (m.Values - Displaced(m, k)) + {r}
    ensures rt.OwnedBy(m'.Values, who)
    ensures rt.owner == old(rt.owner) - Displaced(m, k)
    ensures rt.released == old(rt.released) + multiset(Displaced(m, k))
    ensures rt.freedAt == if k in m then old(rt.freedAt)[m[k] := |rt.calls|] else old(rt.freedAt)
    ensures rt.next == old(rt.next) && rt.calls == old(rt.calls)
    ensures rt.unexpected == old(rt.unexpected)
  {
    InstallValues(m, k, r);
    if k in m {
      rt.Release(m[k], who);
    }
    m' := m[k := r];
  }

  /** Erases `k`, releasing its resource; an absent key changes nothing. */
  method Erase<K>(rt: Runtime, m: map<K, Resource>, k: K, who: object)
    returns (m': map<K, Resource>)
    requires rt.Valid() && Injective(m) && rt.OwnedBy(m.Values, who)
    modifies rt
    ensures rt.Valid()
    ensures m' == m - {k} && Injective(m')
    ensures m'.Values == m.Values - Displaced(m, k)
    ensures rt.OwnedBy(m'.Values, who)
    ensures rt.owner == old(rt.owner) - Displaced(m, k)
    ensures rt.released == old(rt.released) + multiset(Displaced(m, k))
    ensures rt.freedAt == if k in m then old(rt.freedAt)[m[k] := |rt.calls|] else old(rt.freedAt)
    ensures rt.next == old(rt.next) && rt.calls == old(rt.calls)
    ensures rt.unexpected == old(rt.unexpected)
    ensures k !in m ==> m' == m && rt.owner == old(rt.owner) && rt.released == old(rt.released)
  {
    EraseValues(m, k);
    if k in m {
      rt.Release(m[k], who);
    }
    m' := m - {k};
  }

  /** `ks` lists every key of `keys` exactly once: the order a loop over a map visits its keys in. */
  ghost predicate Lists<K>(ks: seq<K>, keys: set<K>)
  {
    && (forall i | 0 <= i < |ks| :: ks[i] in keys)
    && (forall k | k in keys :: k in ks)
    && (forall i, j | 0 <= i < j < |ks| :: ks[i] != ks[j])
  }

  /** The keys of `m`, each once, in the order a traversal takes them. */
  method KeysOf<K, V>(m: map<K, V>) returns (ks: seq<K>)
    ensures Lists(ks, m.Keys)
  {
    var rest := m.Keys;
    ks := [];
    while rest != {}
      invariant rest <= m.Keys
      invariant forall i | 0 <= i < |ks| :: ks[i] in m && ks[i] !in rest
      invariant forall k | k in m && k !in rest :: k in ks
      invariant forall i, j | 0 <= i < j < |ks| :: ks[i] != ks[j]
      decreases rest
    {
      var k :| k in rest;
      ks := ks + [k];
      rest := rest - {k};
    }
  }

  /** The resources held under the keys `ks`, taken in order. */
  ghost function Image<K, V>(m: map<K, V>, ks: seq<K>): (vs: set<V>)
    ensures vs <= m.Values
    decreases |ks|
  {
    if ks == [] then {}
    else
      var k := ks[|ks| - 1];
      Image(m, ks[..|ks| - 1]) + (if k in m then {m[k]} else {})
  }

  /** Taking one more key of the list adds that key's resource to the image. */
  lemma ImageStep<K, V>(m: map<K, V>, ks: seq<K>, i: nat)
    requires i < |ks| && ks[i] in m
    ensures Image(m, ks[..i + 1]) == Image(m, ks[..i]) + {m[ks[i]]}
  {
    assert ks[..i + 1][..i] == ks[..i];
  }

  /** A key of the list that is in the map contributes its resource. */
  lemma {:induction false} InImage<K, V>(m: map<K, V>, ks: seq<K>, k: K)
    requires k in ks && k in m
    ensures m[k] in Image(m, ks)
    decreases |ks|
  {
    if ks[|ks| - 1] != k {
      var i :| 0 <= i < |ks| && ks[i] == k;
      assert ks[..|ks| - 1][i] == k;
      InImage(m, ks[..|ks| - 1], k);
    }
  }

  /** In an injective map, the resource of a key outside the list is not in its image. */
  lemma {:induction false} OutsideImage<K, V>(m: map<K, V>, ks: seq<K>, k: K)
    requires Injective(m) && k in m && k !in ks
    ensures m[k] !in Image(m, ks)
    decreases |ks|
  {
    if ks != [] {
      var init := ks[..|ks| - 1];
      assert forall j | j in init :: j in ks;
      OutsideImage(m, init, k);
    }
  }

  /** Listing every key of the map reaches every resource in it. */
  lemma ImageOfAll<K, V>(m: map<K, V>, ks: seq<K>)
    requires Lists(ks, m.Keys)
    ensures Image(m, ks) == m.Values
  {
    forall v | v in m.Values ensures v in Image(m, ks) {
      var k :| k in m && m[k] == v;
      InImage(m, ks, k);
    }
  }
}
